=== FILE: README.md ===
# goreact todo service — a Dafny model

A model of the server core of a small todo application: a Go HTTP API (Echo, PostgreSQL,
JWT sessions) and the React list component that consumes it. Users register and log in.
A login returns a 72-hour HS256 token carrying the user id. Every `/api/v1/todos` route
sits behind a middleware that checks `Authorization: Bearer <token>`, looks the user up
and stores it in the request context. The todo handlers then read, create, patch and
delete only the rows that user owns.

The model is pure Dafny functions over immutable values:

- **Tables.** The `todos` table is a map from primary key to row (`TodoStore.Table`).
  The `users` table is a sequence of rows in storage order (`Users.UserTable`), so a
  single-row query returns the first row it matches.
- **Injected values.** Store failures, the generated id and the clock are parameters
  (`fault`, `freshId`, `now`). So are bcrypt and the JWT library, given as functions.
- **Replies.** A handler's answer is a status with a JSON body, or `Crash` for a Go
  panic. No Echo recovery middleware is installed, so a panic aborts the request:
  net/http's connection handler recovers it, logs it and closes the connection, and the
  client gets no HTTP reply. The process itself keeps running.
- **The partial update.** `TodoStore.BuildUpdate` builds the UPDATE statement as data,
  and `TodoStore.Execute` gives it its meaning. `TodoStore.ExecuteBuiltUpdate` proves
  that the statement does what the patch means (`TodoStore.ApplyPatch`).

Modules, each in its own file:

| file | module | models |
|---|---|---|
| base.dfy | `Base` | `Option` (nil pointers and optional fields), `Result` (Go's value-plus-error) |
| text.dfy | `Text` | `stringJoin` and `joinWithComma`; Go's `strings.Split` |
| users.dfy | `Users` | internal/database/users.go |
| request_context.dfy | `RequestContext` | the `"user"` context entry; cmd/api/context.go |
| http.dfy | `Http` | statuses, JSON bodies, panics |
| todo_store.dfy | `TodoStore` | internal/database/todo.go |
| todo_handlers.dfy | `TodoHandlers` | cmd/api/todo_handlers.go |
| middleware.dfy | `Middleware` | cmd/api/middleware.go |
| auth.dfy | `Auth` | `registerUser` and `login` of cmd/api/auth.go |
| todo_list.dfy | `TodoList` | the list state of client/src/components/todo/todo-list.tsx |
| scenarios.dfy | `Scenarios` | properties spanning several components |

## Model

| member | source | states |
|---|---|---|
| Text.Join | internal/database/todo.go:138-147 | Reference join: with no parts it is empty; otherwise its length is the total length of the parts plus one separator between each pair of neighbours |
| Text.JoinSnoc | internal/database/todo.go:140-145 | Appending a part adds one separator (unless the list was empty) and then the part |
| Text.StringJoin | internal/database/todo.go:138-147 | The accumulating loop that puts `sep` before every part but the first computes exactly the reference join |
| Text.JoinWithComma | internal/database/todo.go:134-136 | The SET list is the parts joined with `", "` |
| Text.Split | cmd/api/middleware.go:21 | `strings.Split` on one character gives one part more than there are separators, and no part contains the separator |
| Text.SplitWithoutSeparator | cmd/api/middleware.go:21 | A string without the separator splits into itself alone |
| Text.SplitAfterPart | cmd/api/middleware.go:21 | A separator-free prefix followed by the separator splits off as the first part |
| Text.JoinSplit | cmd/api/middleware.go:21 | Re-joining the parts of a split gives back the original string |
| Text.SplitJoin | cmd/api/middleware.go:21 | Splitting a join of separator-free parts gives back the parts |
| Users.WireHidesPassword | internal/database/users.go:14-21 | The JSON form of a user keeps id, email, name and both timestamps, and does not depend on the password (`json:"-"`) |
| Users.Lookup | internal/database/users.go:51-72 | A single-row query returns a row that exists and matches the key; it returns nothing exactly when no row matches |
| Users.LookupFindsTheMatch | internal/database/users.go:51-72 | With unique ids and emails, the row that a key matches is the one returned |
| Users.GetUser | internal/database/users.go:51-72 | A query error is passed through unchanged; "no rows" is a nil user with no error; otherwise the matching row comes back |
| Users.Get | internal/database/users.go:74-80 | Lookup by exact id: a user is returned only if that id is stored, and nil is returned exactly when it is not |
| Users.GetByEmail | internal/database/users.go:82-88 | Lookup by exact, case-sensitive email, with the same error and nil cases |
| Users.Insert | internal/database/users.go:23-49 | Email, name and password are stored as given; the id and both timestamps come from the store; a failure or a taken email stores nothing |
| Users.InsertKeepsWellFormed | internal/database/users.go:23-49 | An insert keeps ids and emails unique |
| RequestContext.WithUser | cmd/api/middleware.go:66 | `c.Set("user", u)` stores the pointer under "user", leaves every other entry alone and adds no other key |
| RequestContext.GetUserFromContext | cmd/api/context.go:8-20 | A missing entry or a value of another type gives the zero user. A stored pointer comes back as it is, so the result is nil only when a nil pointer was stored. A user with a non-empty id is returned only if it was the one stored. A stored `*User` comes back unchanged, nil included |
| RequestContext.SetThenGet | cmd/api/context.go:8-20 | Reading back after `c.Set("user", u)` gives `u`, nil included |
| Http.TodoSlice | cmd/api/todo_handlers.go:28 | A list of todos encodes as JSON `null` exactly when it is empty (a nil Go slice) |
| TodoStore.OwnedRows | internal/database/todo.go:35-53 | The scan yields exactly the rows whose `user_id` is the caller's, each one once, and nothing exactly when there are none |
| TodoStore.CreateTitleRule | internal/database/todo.go:25 | `required,min=3`: a create is valid exactly when its title has at least three characters (runes, which is what `\|s\|` counts over Dafny's Unicode chars), so `""` is refused |
| TodoStore.PatchTitleRule | internal/database/todo.go:30 | `omitempty,min=3`: an absent title passes, and a present title, even `""`, needs at least three characters |
| TodoStore.Get | internal/database/todo.go:35-56 | A query failure gives "query failed: …". Otherwise the result holds exactly the caller's rows, without duplicates and without other owners' rows, and it is empty exactly when the caller owns none. A scan failure gives "scan failed: …" when the caller owns at least one row; with no rows there is nothing to scan and the result is an empty list |
| TodoStore.Insert | internal/database/todo.go:58-80 | The new row has the fresh id, the given title and description, `completed = false`, the clock's time and the caller as owner. The returned todo is that row and no other row changes. A failure gives "insert failed: …" and no change |
| TodoStore.PresentFields | internal/database/todo.go:91-105 | A patch supplies at most three fields and never the owner column |
| TodoStore.Values | internal/database/todo.go:93-103 | The arguments are the values of the present fields, in order |
| TodoStore.AppendLayout | internal/database/todo.go:91-104 | Each `if patch.X != nil` block puts the field it adds on the next placeholder and its value as the next argument |
| TodoStore.LaidOutPlaceholders | internal/database/todo.go:111-119 | In the closed-form statement the k fields sit on `$1..$k` in order, `user_id` on `$(k+1)`, and the WHERE id and owner on `$(k+2)` and `$(k+3)`; the arguments are the field values, then the caller, the id and the caller |
| TodoStore.BuildUpdate | internal/database/todo.go:87-119 | The builder refuses the patch ("no fields to update") exactly when no field is present; otherwise it builds exactly the closed-form statement for the present fields |
| TodoStore.BuiltQueryIsWellBound | internal/database/todo.go:111-119 | Every placeholder of the built statement binds an argument and no two share one; the WHERE slots bind the id and the caller |
| TodoStore.AssignAllFields | internal/database/todo.go:87-105 | A SET list whose items name the fields' columns, on placeholders bound to the fields' values, assigns exactly those fields |
| TodoStore.ApplyFieldsAppend | internal/database/todo.go:87-105 | Assigning two lists of fields one after the other is assigning their concatenation |
| TodoStore.PresentFieldsApplyPatch | internal/database/todo.go:91-113 | Assigning the present fields and then `user_id` is the patch followed by setting the owner |
| TodoStore.ExecuteBuiltUpdate | internal/database/todo.go:87-124 | On the caller's row with this id, the built statement changes exactly the present fields and returns the row. Otherwise it changes nothing and returns no row |
| TodoStore.Update | internal/database/todo.go:82-132 | A nil patch or a patch with no present field is refused before the table is touched. On the caller's row the patch is applied and the updated row returned. An absent or foreign id gives "todo not found". A database failure gives "update failed: …" |
| TodoStore.PatchKeepsIdentity | internal/database/todo.go:29-33 | A patch never changes the id, the creation time or the owner. Each present field takes its value and each absent field keeps its own |
| TodoStore.Delete | internal/database/todo.go:149-162 | Exactly the row with this id and owner is removed. Success happens exactly when such a row exists; otherwise "todo not found" with nothing changed. Each failure path has its own error, and no row other than the deleted one changes |
| TodoStore.OtherOwnersUntouched | internal/database/todo.go:58-162 | Rows of other owners survive, unchanged, every insert, update and delete of the caller |
| TodoStore.OperationsKeepWellFormed | internal/database/todo.go:58-162 | Insert, update and delete keep each row under its own id, and an update never changes an owner |
| TodoStore.InsertThenDelete | internal/database/todo.go:58-80 | Deleting a just-inserted todo as its owner succeeds and restores the table |
| TodoHandlers.CallerId | cmd/api/todo_handlers.go:20-21 | The owner every store call uses is the context user's id. There is none, and reading it panics, exactly when the context holds a nil user |
| TodoHandlers.HandleGetTodos | cmd/api/todo_handlers.go:19-29 | 200 with exactly the caller's todos, each listed once, `null` exactly when there are none; 500 "Failed to fetch todos" whenever the store fails (query or scan), a panic for a nil context user |
| TodoHandlers.HandleCreateTodo | cmd/api/todo_handlers.go:42-70 | A body that fails to bind, or a title shorter than three characters, gets 400 and the store is not touched. Otherwise a nil context user panics; for a real caller the reply is 201 with the caller's new todo, or 500 when the insert fails |
| TodoHandlers.UpdateFailure | cmd/api/todo_handlers.go:107-125 | Maps a store error to 404 for "todo not found", to 400 for the empty-patch text, and to 500 for anything else |
| TodoHandlers.HandleUpdateTodo | cmd/api/todo_handlers.go:85-128 | As written: 400 for an unbindable body or a short title; 404 for another user's or an absent todo; 200 with exactly the patch applied; 500 with the table unchanged when the database fails; 500, not 400, for an empty patch; and a panic for a valid request with a nil context user |
| TodoHandlers.HandleUpdateTodoFixed | cmd/api/todo_handlers.go:107-118 | With the store's empty-patch text matched, an empty patch gets 400 "No updates provided" and the table is unchanged; a valid request with a nil context user still panics |
| TodoHandlers.FixedDiffersOnlyOnEmptyPatch | cmd/api/todo_handlers.go:107-125 | Both update handlers give the same answer to every request except an empty patch |
| TodoHandlers.HandleDeleteTodo | cmd/api/todo_handlers.go:141-159 | 204 once the caller's row is gone; 404 when the caller owns no row with this id; 500 on a store failure. A failed DELETE leaves the table unchanged; a failed row count after a successful DELETE still answers 500, but the row is gone. Only that row can disappear |
| TodoHandlers.DatabaseFailureIsNoKnownText | cmd/api/todo_handlers.go:108-124 | The store's "update failed: …" text never matches "todo not found" or either empty-patch text, so a database failure falls to the 500 branch |
| Middleware.HeaderSplit | cmd/api/middleware.go:21-26 | The split check (two parts, the first `Bearer`) holds exactly when the header is `Bearer`, one space, and a token without spaces. The token is then the text after `Bearer ` |
| Middleware.AuthMiddleware | cmd/api/middleware.go:11-71 | A missing header, a malformed header, an unverified or non-HMAC token, or a failing lookup gets 401 and the next handler never runs. A verified token without a string `userId` panics. Otherwise, with a lookup that does not fail, the next handler runs with the looked-up user stored under "user" and the other context entries kept; that user is nil exactly when no user has the token's id |
| Middleware.AuthMiddlewareFixed | cmd/api/middleware.go:60-68 | Also refusing a lookup that finds no row: the next handler runs only with an existing user whose id is the token's subject. It stops wherever the gate as written stops, and continues, with the same context, wherever the gate as written continues with an existing user |
| Middleware.RefusedHeaders | cmd/api/middleware.go:21-26 | `Bearer  t` (two spaces) and `bearer t` (lower case) are both refused as malformed |
| Auth.IssuedClaims | cmd/api/auth.go:93-96 | A session token carries exactly `userId` and `exp`, where `exp` is 259200 seconds (72 hours) after issue |
| Auth.RegisterUser | cmd/api/auth.go:40-63 | 400 for an unbindable body; 500 when hashing fails; 500 "Could not create user" when the store fails or the email is taken, with nothing stored. Otherwise 201: the stored row holds the hash, never the password, and the reply is its public fields |
| Auth.RegisterReplyHidesPassword | cmd/api/auth.go:52-62 | The registration reply is the same whatever the password |
| Auth.Login | cmd/api/auth.go:75-104 | 400 for an unbindable body; 500 for a failing lookup; the same 401 for an unknown email and for a wrong password. With a known email and a matching password the reply is 200 with the token signed with HS256 over the found user's id and the 72-hour expiry, or 500 "Error generating token" when signing fails |
| Auth.UnknownEmailLooksLikeWrongPassword | cmd/api/auth.go:81-91 | An unknown email and a wrong password get identical replies |
| TodoList.FilteredTodos | client/src/components/todo/todo-list.tsx:130-139 | The view holds exactly the todos the filter shows, and is never longer than the list |
| TodoList.FilterConcat | client/src/components/todo/todo-list.tsx:130-139 | Filtering distributes over concatenation, so the view keeps the list's order |
| TodoList.FilterAllIsIdentity | client/src/components/todo/todo-list.tsx:136-137 | The `all` filter shows the whole list in order |
| TodoList.ActiveCompletedPartition | client/src/components/todo/todo-list.tsx:132-135 | `active` and `completed` split the list: as multisets their views add up to it |
| TodoList.AddTodo | client/src/components/todo/todo-list.tsx:51-78 | On a 2xx reply the created todo goes at the end and the old list stays in front of it; otherwise the list is unchanged |
| TodoList.AddedTodoIsFiltered | client/src/components/todo/todo-list.tsx:65-139 | After a successful create, the view is the old view, with the new todo appended exactly when the filter shows it |
| TodoList.WithoutId | client/src/components/todo/todo-list.tsx:89 | Exactly the todos with another id remain |
| TodoList.WithoutIdConcat | client/src/components/todo/todo-list.tsx:89 | Removal by id keeps the survivors in order |
| TodoList.WithoutAbsentId | client/src/components/todo/todo-list.tsx:89 | Removing an id the list does not hold leaves the list as it is |
| TodoList.OnDelete | client/src/components/todo/todo-list.tsx:80-98 | On a 2xx reply every todo with this id leaves and all others stay; otherwise the list is unchanged |
| TodoList.DeleteCommutesWithFilter | client/src/components/todo/todo-list.tsx:89-139 | Deleting and then filtering is filtering and then deleting |
| TodoList.SetCompleted | client/src/components/todo/todo-list.tsx:111-113 | Same length; the todos with this id take the new flag, and every other todo is unchanged |
| TodoList.OnToggle | client/src/components/todo/todo-list.tsx:100-122 | Ids, titles and descriptions never change. On a 2xx reply only the flag of the toggled id changes; otherwise the list is unchanged |
| TodoList.ToggledTodoIsFiltered | client/src/components/todo/todo-list.tsx:100-139 | After a successful toggle the todo appears under the filter that matches its new state |
| TodoList.FetchTodos | client/src/components/todo/todo-list.tsx:27-49 | A failed request, a non-2xx reply or a `null` body leaves an empty list; otherwise the list is the decoded body |
| Scenarios.EmptyPatchAnswers500 | cmd/api/todo_handlers.go:106-124 | An empty patch from a signed-in user gets 500 "Failed to update todo" |
| Scenarios.EmptyPatchAnswers400 | cmd/api/todo_handlers.go:114-118 | With the corrected match, the same request gets 400 "No updates provided" |
| Scenarios.VanishedUserCrashesHandler | cmd/api/middleware.go:60-68 | A valid token for a user who no longer exists passes the gate, and the next handler panics on a nil pointer |
| Scenarios.FixedGateGivesHandlersTheSubject | cmd/api/middleware.go:60-68 | Behind the corrected gate, a handler's caller is the token's subject and listing never panics |
| Scenarios.RegisterThenLogin | cmd/api/auth.go:40-104 | A user who registers gets 201 and can then log in with the same email and password, receiving 200 with a token signed over the id the store gave them (assuming bcrypt's hash and compare round-trip and signing succeeds) |
| Scenarios.LoginTokenOpensGate | cmd/api/auth.go:93-103 | A token from a successful login, presented as `Bearer <token>`, opens the gate for exactly the user who logged in |
| Scenarios.OtherUsersTodoIsNotFound | cmd/api/todo_handlers.go:106-113 | Patching or deleting another user's todo gets 404, the same as for a missing id, and changes nothing |
| Scenarios.TodoLifecycle | cmd/api/todo_handlers.go:42-159 | Create, complete, delete, list: 201 with `completed` false, then 200 with the flag set, then 204 with the table restored, then an empty `null` list |
| Scenarios.CreateStep | cmd/api/todo_handlers.go:42-70 | Creating "Buy milk" gets 201 with a fresh, not completed todo of the caller, and adds it to the table |
| Scenarios.CompleteStep | cmd/api/todo_handlers.go:85-128 | Patching `{completed: true}` on the caller's todo gets 200 with only the flag changed |
| Scenarios.DeleteStep | cmd/api/todo_handlers.go:141-159 | Deleting the caller's todo gets 204 and gives back the table without it |
| Scenarios.ListStep | cmd/api/todo_handlers.go:19-29 | A caller who owns nothing gets 200 with `null` |
| Scenarios.DecodeTodoSlice | client/src/components/todo/todo-list.tsx:36-37 | Go's nil slice, encoded as `null`, and the client's `data \|\| []` cancel out: whatever rows the server lists, the client ends up with exactly those rows, in order |
| Scenarios.ClientListIsCallersTodos | client/src/components/todo/todo-list.tsx:27-37 | After a fetch from a healthy server, the client holds exactly the caller's todos, also when the server answers `null` |

## Left out

- SQL text, the database driver and the connection are not modelled. Each query is its effect on the table plus an optional failure.
- The `users` email uniqueness is taken as a property of the store: `Users.Insert` refuses a taken email with `Users.DuplicateEmail`. The schema that enforces it is not part of this model.
- The order of rows returned by `Get` is a parameter (`order`), because the query has no ORDER BY.
- `Get` ignores `rows.Err()` after the scan loop, so an iteration error ends the list early without an error. The model has only the query and scan failures.
- The validator's `Details` text is not modelled. Only the 400 status and message are.
- The "Invalid token claims" branch of the middleware is left out. With `jwt.Parse` the claims are always `jwt.MapClaims`, so it cannot be reached.
- The commented-out expiry check is not modelled. Token expiry is part of the library's verdict, `Jwt.accepts`.
- JWT parsing and signing, bcrypt hashing and comparison, uuid and the clock are function or value parameters.
- TodoStore.Insert and TodoHandlers.HandleCreateTodo require the id from `uuid.New` to be fresh. A collision, which the database would refuse as "insert failed: …", is not modelled.
- Timeouts (`context.WithTimeout`), the debug logging, concurrency, rendering, loading flags and toasts are not modelled.
- The todo handlers use string codes ("INTERNAL_ERROR", …) in their error bodies. The constants in cmd/api/error_code.go are not used and are not modelled.
- The SET list's assignments are applied left to right. Since no column repeats, this is the same as PostgreSQL's simultaneous assignment.
- Times are whole Unix seconds. The model writes the timestamps of an unsaved user, and of Go's zero `User{}`, as 0 (Go's zero time is really 0001-01-01 UTC); nothing reads them.
- `res.json()` is abstracted by `Scenarios.DecodeList` (JSON `null` as no list, an array one todo for one) together with `Scenarios.ToClient`.
- TodoList.FetchTodos: the client declares `description: string`, but an omitted description reaches it as `undefined`. The model reads it as the empty string (`Scenarios.ToClient`).

## Findings

| source | as written | input that shows it | evidently intended | confidence | as-written member | corrected member |
|---|---|---|---|---|---|---|
| cmd/api/todo_handlers.go:114 | The handler matches the error text "no updates provided", but the store reports an empty patch as "no fields to update" (internal/database/todo.go:108) | `PATCH /api/v1/todos/{id}` with body `{}` from a signed-in user: 500 "Failed to update todo" | 400 "No updates provided" | high; not executed | Scenarios.EmptyPatchAnswers500 | Scenarios.EmptyPatchAnswers400 |
| cmd/api/middleware.go:60-68 | A lookup that finds no row returns a nil `*User` with a nil error, and the gate stores it. `GetUserFromContext` returns that nil pointer, because an interface holding a typed nil is not `== nil`. The handler then panics on `user.Id` | A correctly signed token whose `userId` is no longer in `users`, on `GET /api/v1/todos` | 401 "Unauthorized access" at the gate | high; not executed | Scenarios.VanishedUserCrashesHandler | Scenarios.FixedGateGivesHandlersTheSubject |

The handlers as written are `TodoHandlers.HandleUpdateTodo` and `Middleware.AuthMiddleware`. The corrected versions are `TodoHandlers.HandleUpdateTodoFixed` and `Middleware.AuthMiddlewareFixed`. `TodoHandlers.FixedDiffersOnlyOnEmptyPatch` and the ensures of `Middleware.AuthMiddlewareFixed` show that each correction changes nothing else. The end-to-end properties in `Scenarios` use the corrected versions.

=== FILE: auth.dfy ===
/** Registration and login (cmd/api/auth.go). bcrypt and JWT signing are given as
    functions: `hash` may fail, `matches(hash, password)` is
    `CompareHashAndPassword` succeeding, and `sign(alg, claims)` is `SignedString`
    with the server secret.
 */
module Auth {
  import opened Base
  import opened Users
  import opened Http
  import opened Middleware

  datatype RegisterRequest = RegisterRequest(email: string, password: string, name: string)
  datatype LoginRequest = LoginRequest(email: string, password: string)

  /** The reply and the users table afterwards. */
  datatype Registration = Registration(reply: Reply, users: UserTable)

  const SomethingWentWrong := Reply(StatusInternalServerError, ErrorMap("Something went wrong"))
  const CouldNotCreateUser := Reply(StatusInternalServerError, ErrorMap("Could not create user"))
  const InvalidCredentials := Reply(StatusUnauthorized, ErrorMap("Invalid email or password"))
  const TokenFailure := Reply(StatusInternalServerError, ErrorMap("Error generating token"))

  /** Seventy-two hours, in seconds. */
  const TokenLifetime := 72 * 60 * 60

  /** The claims of a session token issued at `now`. */
  function IssuedClaims(userId: string, now: Instant): (claims: Claims)
    ensures claims.Keys == {UserIdClaim, "exp"}
    ensures claims[UserIdClaim] == StringClaim(userId)
    ensures claims["exp"] == NumberClaim(now + 259200)
  {
    map[UserIdClaim := StringClaim(userId), "exp" := NumberClaim(now + TokenLifetime)]
  }

  /** `registerUser`: a body that does not bind is 400; a failing hash is 500; the row
      stored holds the hash of the password, never the password itself, with email and
      name as given; a store failure, including an email already taken, is 500 "Could not
      create user" and stores nothing; success is 201 with the user's public fields. */
  function RegisterUser(request: Result<RegisterRequest>, hash: string -> Result<string>, users: UserTable,
                        freshId: string, now: Instant, fault: Option<string>): (r: Registration)
    requires forall u :: u in users ==> u.id != freshId
    ensures request.Err? ==> r == Registration(Reply(StatusBadRequest, ErrorMap(request.error)), users)
    ensures request.Ok? && hash(request.value.password).Err? ==> r == Registration(SomethingWentWrong, users)
    ensures request.Ok? && hash(request.value.password).Ok? &&
            (fault.Some? || exists u :: u in users && u.email == request.value.email) ==>
              r == Registration(CouldNotCreateUser, users)
    ensures request.Ok? && hash(request.value.password).Ok? && fault.None? &&
            (forall u :: u in users ==> u.email != request.value.email) ==>
              r.reply.Reply? && r.reply.status == StatusCreated
    ensures r.reply.Reply? && r.reply.status == StatusCreated ==>
              && request.Ok? && hash(request.value.password).Ok?
              && |r.users| == |users| + 1 && r.users[..|users|] == users
              && var row := r.users[|users|];
                 && row.password == hash(request.value.password).value
                 && row.email == request.value.email && row.name == request.value.name
                 && row.id == freshId && row.createdAt == now && row.updatedAt == now
                 && r.reply.body == UserJson(Wire(row))
    ensures r.reply.Reply? && r.reply.status != StatusCreated ==> r.users == users
  {
    match request
    case Err(e) => Registration(Reply(StatusBadRequest, ErrorMap(e)), users)
    case Ok(req) =>
      match hash(req.password)
      case Err(_) => Registration(SomethingWentWrong, users)
      case Ok(hashed) =>
        var s := Users.Insert(users, User("", req.email, req.name, hashed, 0, 0), freshId, now, fault);
        match s.result
        case Err(_) => Registration(CouldNotCreateUser, users)
        case Ok(stored) =>
          assert s.users[..|users|] == users;
          Registration(Reply(StatusCreated, UserJson(Wire(stored))), s.users)
  }

  /** The registration reply is the same whatever the password and its hash: neither
      ever reaches the wire. */
  lemma {:induction false} RegisterReplyHidesPassword(email: string, name: string, password1: string, password2: string,
                                                      hash: string -> Result<string>, users: UserTable,
                                                      freshId: string, now: Instant, fault: Option<string>)
    requires forall u :: u in users ==> u.id != freshId
    requires hash(password1).Ok? && hash(password2).Ok?
    ensures RegisterUser(Ok(RegisterRequest(email, password1, name)), hash, users, freshId, now, fault).reply
            == RegisterUser(Ok(RegisterRequest(email, password2, name)), hash, users, freshId, now, fault).reply
  {
    var r1 := RegisterUser(Ok(RegisterRequest(email, password1, name)), hash, users, freshId, now, fault);
    var r2 := RegisterUser(Ok(RegisterRequest(email, password2, name)), hash, users, freshId, now, fault);
    if r1.reply.Reply? && r1.reply.status == StatusCreated {
      var row1 := r1.users[|users|];
      var row2 := r2.users[|users|];
      assert row2 == row1.(password := row2.password);
      WireHidesPassword(row1, row2.password);
    }
  }

  /** `login`: a body that does not bind is 400 and a failing lookup is 500; an unknown
      email and a wrong password both get the same 401; on success the token is
      `sign(HS256, {userId, exp = now + 72h})` for the user found, returned as
      `{token}` with 200, and a signing failure is 500. */
  function Login(request: Result<LoginRequest>, users: UserTable, fault: Option<string>,
                 matches: (string, string) -> bool, sign: (Alg, Claims) -> Result<string>,
                 now: Instant): (r: Reply)
    ensures request.Err? ==> r == Reply(StatusBadRequest, ErrorMap(request.error))
    ensures request.Ok? && fault.Some? ==> r == SomethingWentWrong
    ensures request.Ok? && fault.None? && (forall u :: u in users ==> u.email != request.value.email) ==>
              r == InvalidCredentials
    ensures request.Ok? && fault.None? ==>
              (r == InvalidCredentials <==>
                 (forall u :: u in users ==> u.email != request.value.email) ||
                 !matches(Lookup(users, ByEmail(request.value.email)).value.password, request.value.password))
    ensures r.Reply? && r.status == StatusOK ==>
              && request.Ok? && fault.None?
              && var found := Lookup(users, ByEmail(request.value.email));
                 && found.Some? && found.value in users && found.value.email == request.value.email
                 && matches(found.value.password, request.value.password)
                 && sign(HS256, IssuedClaims(found.value.id, now)).Ok?
                 && r.body == TokenJson(sign(HS256, IssuedClaims(found.value.id, now)).value)
    ensures r.Reply? && r.status != StatusOK ==>
              r.status == StatusBadRequest || r.status == StatusUnauthorized || r.status == StatusInternalServerError
    ensures request.Ok? && fault.None? ==>
              var found := Lookup(users, ByEmail(request.value.email));
              found.Some? && matches(found.value.password, request.value.password) ==>
                r == match sign(HS256, IssuedClaims(found.value.id, now))
                     case Ok(token) => Reply(StatusOK, TokenJson(token))
                     case Err(_) => TokenFailure
  {
    match request
    case Err(e) => Reply(StatusBadRequest, ErrorMap(e))
    case Ok(req) =>
      match GetByEmail(users, req.email, fault)
      case Err(_) => SomethingWentWrong
      case Ok(None) => InvalidCredentials
      case Ok(Some(user)) =>
        if !matches(user.password, req.password) then InvalidCredentials
        else match sign(HS256, IssuedClaims(user.id, now))
          case Err(_) => TokenFailure
          case Ok(token) => Reply(StatusOK, TokenJson(token))
  }

  /** An unknown email and a known email with the wrong password are answered
      identically, so a caller cannot tell which accounts exist. */
  lemma UnknownEmailLooksLikeWrongPassword(users: UserTable, matches: (string, string) -> bool,
                                           sign: (Alg, Claims) -> Result<string>, now: Instant,
                                           unknown: LoginRequest, wrong: LoginRequest, i: nat)
    requires WellFormed(users)
    requires forall u :: u in users ==> u.email != unknown.email
    requires i < |users| && users[i].email == wrong.email && !matches(users[i].password, wrong.password)
    ensures Login(Ok(unknown), users, None, matches, sign, now) == Login(Ok(wrong), users, None, matches, sign, now)
    ensures Login(Ok(wrong), users, None, matches, sign, now) == InvalidCredentials
  {
    LookupFindsTheMatch(users, ByEmail(wrong.email), i);
  }
}

=== FILE: base.dfy ===
/** Values shared by every module of the model.

    Go's `(T, error)` return pairs become `Result<T>`, whose failure side carries the
    error's text (the handlers branch on that text), and a possibly-nil pointer
    becomes `Option<T>`.
 */
module Base {

  /** A nullable pointer or an optional JSON field: `None` is Go's nil. */
  datatype Option<+T> = None | Some(value: T) {

    /** The pointed-to value, or `default` when nil. */
    function GetOr(default: T): T {
      match this
      case Some(v) => v
      case None => default
    }
  }

  /** The outcome of a Go call returning a value and an `error`. */
  datatype Result<+T> = Ok(value: T) | Err(error: string)

  /** A point in time, in whole Unix seconds. */
  type Instant = int
}

=== FILE: http.dfy ===
/** What a handler answers: a status and a JSON body, or a crash of the request
    (a Go panic, which no middleware of the server recovers from). */
module Http {
  import opened TodoStore
  import opened Users

  datatype Body =
    | NoContent
      /** `ErrorResponse{Code, Message}` of the todo handlers. */
    | Problem(code: string, message: string)
      /** `echo.Map{"error": ...}` of the auth handlers and the middleware. */
    | ErrorMap(error: string)
    | TodoJson(todo: Todo)
    | TodoArray(items: seq<Todo>)
      /** JSON `null`: what a nil slice encodes to. */
    | Null
    | UserJson(user: UserView)
      /** `LoginResponse{Token}`. */
    | TokenJson(token: string)

  datatype Reply = Reply(status: int, body: Body) | Crash(reason: string)

  const StatusOK := 200
  const StatusCreated := 201
  const StatusNoContent := 204
  const StatusBadRequest := 400
  const StatusUnauthorized := 401
  const StatusNotFound := 404
  const StatusInternalServerError := 500

  /** The panic of dereferencing a nil `*database.User`. */
  const NilUserDereference := "invalid memory address or nil pointer dereference"

  /** The JSON encoding of a slice of todos: a nil (empty) slice is `null`. */
  function TodoSlice(todos: seq<Todo>): (b: Body)
    ensures b == Null <==> |todos| == 0
  {
    if |todos| == 0 then Null else TodoArray(todos)
  }
}

=== FILE: middleware.dfy ===
/** The authorization gate (`AuthMiddleware`, cmd/api/middleware.go).

    The JWT library is given as two functions: `decode` reads a token's header and
    claims without checking anything, and `accepts` is the library's own verdict on
    the token under the server secret (signature and standard claims). The gate's own
    logic is what surrounds them: the header format, the HMAC-only key function, the
    `userId` claim, and the user lookup.
 */
module Middleware {
  import opened Base
  import opened Text
  import opened Users
  import opened RequestContext
  import opened Http

  /** The signing method named in a token header. */
  datatype Alg = HS256 | HS384 | HS512 | RS256 | ES256 | Unsigned

  /** The methods the key function lets through (`*jwt.SigningMethodHMAC`). */
  predicate IsHmac(alg: Alg)
  {
    alg == HS256 || alg == HS384 || alg == HS512
  }

  /** A claim value as decoded from JSON. */
  datatype Claim = StringClaim(s: string) | NumberClaim(n: int) | OtherClaim

  type Claims = map<string, Claim>

  datatype Decoded = Decoded(alg: Alg, claims: Claims)

  datatype Jwt = Jwt(decode: string -> Option<Decoded>, accepts: string -> bool)

  const UserIdClaim := "userId"

  /** The outcome of the gate: a reply, or the next handler is called with this context. */
  datatype Decision = Stop(reply: Reply) | Continue(ctx: Context)

  const MissingHeader := Reply(StatusUnauthorized, ErrorMap("Missing authorization header"))
  const MalformedHeader := Reply(StatusUnauthorized, ErrorMap("Invalid authorization header format"))
  const InvalidToken := Reply(StatusUnauthorized, ErrorMap("Invalid token"))
  const UnauthorizedAccess := Reply(StatusUnauthorized, ErrorMap("Unauthorized access"))
  /** A label for the panic of `claims["userId"].(string)` on a missing or non-string
      claim; Go's own message also names the dynamic type found (`nil`, `float64`, …). */
  const ClaimConversion := "interface conversion: interface {} is not string"

  const BearerScheme := "Bearer"
  const BearerPrefix := "Bearer "

  /** The header is `Bearer`, one space, and a token without spaces. */
  predicate BearerForm(header: string)
  {
    |header| >= |BearerPrefix| && header[..|BearerPrefix|] == BearerPrefix && ' ' !in header[|BearerPrefix|..]
  }

  /** Splitting on single spaces gives exactly two parts, the first `Bearer`, precisely
      when the header has bearer form; the second part is then the rest of the header. */
  lemma HeaderSplit(header: string)
    ensures var parts := Split(header, ' ');
            (|parts| == 2 && parts[0] == BearerScheme) <==> BearerForm(header)
    ensures BearerForm(header) ==> Split(header, ' ') == [BearerScheme, header[|BearerPrefix|..]]
  {
    var parts := Split(header, ' ');
    if BearerForm(header) {
      var rest := header[|BearerPrefix|..];
      assert header == BearerScheme + [' '] + rest;
      SplitAfterPart(BearerScheme, ' ', rest);
      SplitWithoutSeparator(rest, ' ');
    }
    if |parts| == 2 && parts[0] == BearerScheme {
      JoinSplit(header, ' ');
      assert parts[1..] == [parts[1]];
      assert header == BearerScheme + [' '] + parts[1];
      assert header[..|BearerPrefix|] == BearerPrefix;
      assert header[|BearerPrefix|..] == parts[1];
    }
  }

  /** The token passes the library and the HMAC-only key function. */
  predicate Verified(jwt: Jwt, token: string)
  {
    jwt.decode(token).Some? && IsHmac(jwt.decode(token).value.alg) && jwt.accepts(token)
  }

  /** The string `userId` claim of a verified token, if it has one. */
  function Subject(jwt: Jwt, token: string): Option<string>
  {
    match jwt.decode(token)
    case None => None
    case Some(d) =>
      if UserIdClaim in d.claims && d.claims[UserIdClaim].StringClaim? then Some(d.claims[UserIdClaim].s) else None
  }

  /** The decision chain, with or without refusing a token whose user no longer exists. */
  function Authenticate(ctx: Context, header: string, jwt: Jwt, users: UserTable,
                        fault: Option<string>, refuseMissingUser: bool): Decision
  {
    if header == "" then Stop(MissingHeader)
    else
      var parts := Split(header, ' ');
      if |parts| != 2 || parts[0] != BearerScheme then Stop(MalformedHeader)
      else
        var token := parts[1];
        if !Verified(jwt, token) then Stop(InvalidToken)
        else match Subject(jwt, token)
          case None => Stop(Crash(ClaimConversion))
          case Some(userId) =>
            match Users.Get(users, userId, fault)
            case Err(_) => Stop(UnauthorizedAccess)
            case Ok(user) =>
              if refuseMissingUser && user.None? then Stop(UnauthorizedAccess)
              else Continue(WithUser(ctx, user))
  }

  /** `AuthMiddleware` as written. A missing header, a header not of the form
      `Bearer <token>` (scheme matched case-sensitively, exactly one space), a token the
      library refuses or one not signed with HMAC are all 401, and so is a failing user
      lookup; none of them reaches the next handler. Otherwise the next handler runs with
      the looked-up user stored under "user", and the token handed to the library is
      exactly the text after `Bearer `. A lookup that finds no row is not refused: the
      next handler then sees a nil user. */
  function AuthMiddleware(ctx: Context, header: string, jwt: Jwt, users: UserTable,
                          fault: Option<string>): (r: Decision)
    ensures header == "" ==> r == Stop(MissingHeader)
    ensures header != "" && !BearerForm(header) ==> r == Stop(MalformedHeader)
    ensures BearerForm(header) && !Verified(jwt, header[|BearerPrefix|..]) ==> r == Stop(InvalidToken)
    ensures (BearerForm(header) && Verified(jwt, header[|BearerPrefix|..]) &&
             Subject(jwt, header[|BearerPrefix|..]).Some? && fault.Some?) ==> r == Stop(UnauthorizedAccess)
    ensures r.Continue? ==>
              && BearerForm(header) && Verified(jwt, header[|BearerPrefix|..]) && fault.None?
              && Subject(jwt, header[|BearerPrefix|..]).Some?
              && var userId := Subject(jwt, header[|BearerPrefix|..]).value;
                 && (GetUserFromContext(r.ctx).Some? ==>
                       GetUserFromContext(r.ctx).value in users && GetUserFromContext(r.ctx).value.id == userId)
                 && (GetUserFromContext(r.ctx).None? <==> forall u :: u in users ==> u.id != userId)
    ensures r.Continue? ==> forall k :: k in ctx.values && k != UserKey ==> k in r.ctx.values && r.ctx.values[k] == ctx.values[k]
    ensures (BearerForm(header) && Verified(jwt, header[|BearerPrefix|..]) &&
             Subject(jwt, header[|BearerPrefix|..]).None?) ==> r == Stop(Crash(ClaimConversion))
    ensures (BearerForm(header) && Verified(jwt, header[|BearerPrefix|..]) &&
             Subject(jwt, header[|BearerPrefix|..]).Some? && fault.None?) ==>
              r == Continue(WithUser(ctx, Lookup(users, ById(Subject(jwt, header[|BearerPrefix|..]).value))))
  {
    HeaderSplit(header);
    Authenticate(ctx, header, jwt, users, fault, false)
  }

  /** The gate with a vanished user refused as well: the next handler only ever runs
      with a user that exists and whose id is the token's subject. */
  function AuthMiddlewareFixed(ctx: Context, header: string, jwt: Jwt, users: UserTable,
                               fault: Option<string>): (r: Decision)
    ensures r.Continue? ==>
              && BearerForm(header) && Verified(jwt, header[|BearerPrefix|..]) && fault.None?
              && Subject(jwt, header[|BearerPrefix|..]).Some?
              && GetUserFromContext(r.ctx).Some?
              && GetUserFromContext(r.ctx).value in users
              && GetUserFromContext(r.ctx).value.id == Subject(jwt, header[|BearerPrefix|..]).value
    ensures (BearerForm(header) && Verified(jwt, header[|BearerPrefix|..]) && fault.None? &&
             Subject(jwt, header[|BearerPrefix|..]).Some? &&
             forall u :: u in users ==> u.id != Subject(jwt, header[|BearerPrefix|..]).value)
            ==> r == Stop(UnauthorizedAccess)
    ensures AuthMiddleware(ctx, header, jwt, users, fault).Stop? ==> r == AuthMiddleware(ctx, header, jwt, users, fault)
    ensures r.Continue? ==> r == AuthMiddleware(ctx, header, jwt, users, fault)
    ensures (AuthMiddleware(ctx, header, jwt, users, fault).Continue? &&
             GetUserFromContext(AuthMiddleware(ctx, header, jwt, users, fault).ctx).Some?) ==>
              r == AuthMiddleware(ctx, header, jwt, users, fault)
  {
    HeaderSplit(header);
    Authenticate(ctx, header, jwt, users, fault, true)
  }

  /** Two headers the format check refuses: a doubled space, and a lower-case scheme. */
  lemma RefusedHeaders(jwt: Jwt, users: UserTable, ctx: Context)
    ensures AuthMiddleware(ctx, "Bearer  t", jwt, users, None) == Stop(MalformedHeader)
    ensures AuthMiddleware(ctx, "bearer t", jwt, users, None) == Stop(MalformedHeader)
  {
    assert ' ' in "Bearer  t"[|BearerPrefix|..] by {
      assert "Bearer  t"[|BearerPrefix|..][0] == ' ';
    }
    assert "bearer t"[..|BearerPrefix|] != BearerPrefix by {
      assert "bearer t"[..|BearerPrefix|][0] != BearerPrefix[0];
    }
  }
}

=== FILE: request_context.dfy ===
/** The request-scoped store of values (Echo's `Context`), restricted to what the
    server keeps in it, and `GetUserFromContext` (cmd/api/context.go).
 */
module RequestContext {
  import opened Base
  import opened Users

  /** A value stored under a key: a `*database.User` (possibly nil) or a value of any
      other dynamic type. */
  datatype Stored = UserRef(ptr: Option<User>) | OtherValue

  datatype Context = Context(values: map<string, Stored>)

  const UserKey := "user"

  /** Go's zero `database.User{}`. */
  function EmptyUser(): User
  {
    User("", "", "", "", 0, 0)
  }

  /** `c.Set("user", user)`. */
  function WithUser(c: Context, user: Option<User>): (r: Context)
    ensures UserKey in r.values && r.values[UserKey] == UserRef(user)
    ensures forall k :: k in c.values && k != UserKey ==> k in r.values && r.values[k] == c.values[k]
    ensures r.values.Keys == c.values.Keys + {UserKey}
  {
    Context(c.values[UserKey := UserRef(user)])
  }

  /** `GetUserFromContext`: the stored `*User` as it is (which may be nil), and the
      zero user when nothing or something of another type is stored. The result is
      `None` only for a stored nil pointer, and it names a user with a non-empty id
      only when that user was stored. */
  function GetUserFromContext(c: Context): (r: Option<User>)
    ensures r.None? ==> UserKey in c.values && c.values[UserKey] == UserRef(None)
    ensures UserKey !in c.values ==> r == Some(EmptyUser())
    ensures UserKey in c.values && c.values[UserKey].OtherValue? ==> r == Some(EmptyUser())
    ensures r.Some? && r.value.id != "" ==> UserKey in c.values && c.values[UserKey] == UserRef(r)
    ensures UserKey in c.values && c.values[UserKey].UserRef? ==> r == c.values[UserKey].ptr
  {
    if UserKey !in c.values then Some(EmptyUser())
    else match c.values[UserKey]
      case UserRef(ptr) => ptr
      case OtherValue => Some(EmptyUser())
  }

  /** What `c.Set("user", u)` stores, `GetUserFromContext` returns. */
  lemma SetThenGet(c: Context, user: Option<User>)
    ensures GetUserFromContext(WithUser(c, user)) == user
  {
  }
}

=== FILE: scenarios.dfy ===
/** Properties that cross components: a request going through the gate into a handler,
    a login token coming back to the gate, and a todo's whole life.
 */
module Scenarios {
  import opened Base
  import Users
  import opened RequestContext
  import opened Http
  import opened TodoStore
  import opened TodoHandlers
  import opened Middleware
  import opened Auth
  import TodoList

  /** As written, `{}` as the body of a patch request is answered 500: the store refuses
      it as "no fields to update", a text the handler does not look for. */
  lemma EmptyPatchAnswers500(ctx: Context, id: string, todos: Table, fault: Option<string>)
    requires CallerId(ctx).Some?
    ensures HandleUpdateTodo(ctx, id, Ok(TodoPatch(None, None, None)), todos, fault)
            == Exchange(Reply(StatusInternalServerError, Problem("INTERNAL_ERROR", "Failed to update todo")), todos)
  {
    assert PresentFields(TodoPatch(None, None, None)) == [];
  }

  /** Matching the store's text, an empty patch is the 400 validation error the handler
      was written to give. */
  lemma EmptyPatchAnswers400(ctx: Context, id: string, todos: Table, fault: Option<string>)
    requires CallerId(ctx).Some?
    ensures HandleUpdateTodoFixed(ctx, id, Ok(TodoPatch(None, None, None)), todos, fault)
            == Exchange(Reply(StatusBadRequest, Problem("VALIDATION_ERROR", "No updates provided")), todos)
  {
    assert PresentFields(TodoPatch(None, None, None)) == [];
  }

  /** As written, a valid token whose user no longer exists passes the gate with a nil
      user stored; the next handler then dereferences it and the request crashes. */
  lemma VanishedUserCrashesHandler(ctx: Context, token: string, jwt: Jwt, users: Users.UserTable,
                                   todos: Table, order: seq<string>, userId: string)
    requires ' ' !in token && Verified(jwt, token) && Subject(jwt, token) == Some(userId)
    requires forall u :: u in users ==> u.id != userId
    requires WellFormed(todos) && IsScanOrder(order, todos)
    ensures AuthMiddleware(ctx, BearerPrefix + token, jwt, users, None).Continue?
    ensures var next := AuthMiddleware(ctx, BearerPrefix + token, jwt, users, None).ctx;
            HandleGetTodos(next, todos, order, None, None) == Crash(NilUserDereference)
  {
    var header := BearerPrefix + token;
    assert header[..|BearerPrefix|] == BearerPrefix && header[|BearerPrefix|..] == token;
    HeaderSplit(header);
  }

  /** With the vanished user refused, every request the gate lets through reaches a
      handler with a real caller, whose id is the token's subject. */
  lemma FixedGateGivesHandlersTheSubject(ctx: Context, header: string, jwt: Jwt, users: Users.UserTable,
                                         fault: Option<string>, todos: Table, order: seq<string>)
    requires WellFormed(todos) && IsScanOrder(order, todos)
    requires AuthMiddlewareFixed(ctx, header, jwt, users, fault).Continue?
    ensures var next := AuthMiddlewareFixed(ctx, header, jwt, users, fault).ctx;
            && CallerId(next) == Subject(jwt, header[|BearerPrefix|..])
            && HandleGetTodos(next, todos, order, None, None).Reply?
  {
  }

  /** A token issued by a successful login, presented as `Bearer <token>`, opens the
      gate for exactly the user who logged in, provided the JWT library reads back the
      claims it signed and accepts its own token. A compact JWT is base64url segments
      joined by '.', so the signed token never contains a space. */
  lemma LoginTokenOpensGate(request: LoginRequest, users: Users.UserTable, i: nat,
                            matches: (string, string) -> bool, sign: (Alg, Claims) -> Result<string>,
                            now: Instant, jwt: Jwt, ctx: Context)
    requires Users.WellFormed(users)
    requires i < |users| && users[i].email == request.email && matches(users[i].password, request.password)
    requires sign(HS256, IssuedClaims(users[i].id, now)).Ok?
    requires var token := sign(HS256, IssuedClaims(users[i].id, now)).value;
             && ' ' !in token
             && jwt.decode(token) == Some(Decoded(HS256, IssuedClaims(users[i].id, now)))
             && jwt.accepts(token)
    ensures Login(Ok(request), users, None, matches, sign, now).Reply?
    ensures var reply := Login(Ok(request), users, None, matches, sign, now);
            && reply.status == StatusOK && reply.body.TokenJson?
            && AuthMiddlewareFixed(ctx, BearerPrefix + reply.body.token, jwt, users, None)
               == Continue(WithUser(ctx, Some(users[i])))
  {
    Users.LookupFindsTheMatch(users, Users.ByEmail(request.email), i);
    var token := sign(HS256, IssuedClaims(users[i].id, now)).value;
    var header := BearerPrefix + token;
    assert header[..|BearerPrefix|] == BearerPrefix && header[|BearerPrefix|..] == token;
    HeaderSplit(header);
    Users.LookupFindsTheMatch(users, Users.ById(users[i].id), i);
  }

  /** Another user's todo can be neither changed nor deleted: both answer 404, exactly
      as for an id that does not exist, and the table stays as it was. */
  lemma OtherUsersTodoIsNotFound(ctx: Context, id: string, patch: TodoPatch, todos: Table)
    requires CallerId(ctx).Some? && id in todos && todos[id].userId != CallerId(ctx).value
    requires ValidPatch(patch) && |PresentFields(patch)| > 0
    ensures HandleUpdateTodoFixed(ctx, id, Ok(patch), todos, None)
            == Exchange(Reply(StatusNotFound, Problem("NOT_FOUND", "Todo not found")), todos)
    ensures HandleDeleteTodo(ctx, id, todos, None, None)
            == Exchange(Reply(StatusNotFound, Problem("NOT_FOUND", "Todo not found")), todos)
  {
    FixedDiffersOnlyOnEmptyPatch(ctx, id, Ok(patch), todos, None);
  }

  /** Create "Buy milk", mark it completed, delete it, list: 201 with `completed` false,
      200 with `completed` true and the title unchanged, 204, and an empty list. */
  lemma TodoLifecycle(ctx: Context, todos: Table, order: seq<string>, freshId: string, now: Instant)
    requires CallerId(ctx).Some?
    requires WellFormed(todos) && freshId !in todos
    requires forall k :: k in todos ==> todos[k].userId != CallerId(ctx).value
    requires IsScanOrder(order, todos)
    ensures var owner := CallerId(ctx).value;
            var created := HandleCreateTodo(ctx, Ok(TodoCreate("Buy milk", None)), todos, freshId, now, None);
            var todo := Todo(freshId, "Buy milk", None, false, now, owner);
            && created == Exchange(Reply(StatusCreated, TodoJson(todo)), todos[freshId := todo])
            && var patched := HandleUpdateTodoFixed(ctx, freshId, Ok(TodoPatch(None, None, Some(true))), created.todos, None);
               && patched.reply == Reply(StatusOK, TodoJson(todo.(completed := true)))
               && var deleted := HandleDeleteTodo(ctx, freshId, patched.todos, None, None);
                  && deleted == Exchange(Reply(StatusNoContent, NoContent), todos)
                  && HandleGetTodos(ctx, deleted.todos, order, None, None) == Reply(StatusOK, Null)
  {
    var todo := Todo(freshId, "Buy milk", None, false, now, CallerId(ctx).value);
    CreateStep(ctx, todos, freshId, now);
    CompleteStep(ctx, todos[freshId := todo], todo);
    DeleteStep(ctx, todos, todo.(completed := true));
    ListStep(ctx, todos, order);
  }

  lemma CreateStep(ctx: Context, todos: Table, freshId: string, now: Instant)
    requires CallerId(ctx).Some? && freshId !in todos
    ensures HandleCreateTodo(ctx, Ok(TodoCreate("Buy milk", None)), todos, freshId, now, None)
            == Exchange(Reply(StatusCreated, TodoJson(Todo(freshId, "Buy milk", None, false, now, CallerId(ctx).value))),
                        todos[freshId := Todo(freshId, "Buy milk", None, false, now, CallerId(ctx).value)])
  {
    assert "Buy milk" != "" && |"Buy milk"| >= MinTitleLength;
  }

  lemma CompleteStep(ctx: Context, todos: Table, todo: Todo)
    requires CallerId(ctx).Some? && todo.id in todos && todos[todo.id] == todo && todo.userId == CallerId(ctx).value
    ensures HandleUpdateTodoFixed(ctx, todo.id, Ok(TodoPatch(None, None, Some(true))), todos, None)
            == Exchange(Reply(StatusOK, TodoJson(todo.(completed := true))), todos[todo.id := todo.(completed := true)])
  {
    var patch := TodoPatch(None, None, Some(true));
    assert |PresentFields(patch)| == 1;
    FixedDiffersOnlyOnEmptyPatch(ctx, todo.id, Ok(patch), todos, None);
  }

  lemma DeleteStep(ctx: Context, todos: Table, todo: Todo)
    requires CallerId(ctx).Some? && todo.id !in todos && todo.userId == CallerId(ctx).value
    ensures HandleDeleteTodo(ctx, todo.id, todos[todo.id := todo], None, None)
            == Exchange(Reply(StatusNoContent, NoContent), todos)
  {
    assert todos[todo.id := todo] - {todo.id} == todos;
  }

  lemma ListStep(ctx: Context, todos: Table, order: seq<string>)
    requires CallerId(ctx).Some? && WellFormed(todos) && IsScanOrder(order, todos)
    requires forall k :: k in todos ==> todos[k].userId != CallerId(ctx).value
    ensures HandleGetTodos(ctx, todos, order, None, None) == Reply(StatusOK, Null)
  {
  }

  /** How the client sees a todo of the wire: a description that was omitted reads as
      the empty string. */
  function ToClient(t: Todo): TodoList.ClientTodo
  {
    TodoList.ClientTodo(t.id, t.title, t.description.GetOr(""), t.completed)
  }

  /** An abstraction of `res.json()` on a list reply: `null` is no list, and an array
      is its todos, one for one. */
  function DecodeList(body: Body): Option<seq<TodoList.ClientTodo>>
  {
    match body
    case TodoArray(items) => Some(seq(|items|, i requires 0 <= i < |items| => ToClient(items[i])))
    case _ => None
  }

  /** The end-to-end scenario's opening: a user who registers can log in with the same
      credentials and gets a token for the id the store gave them. The bcrypt pair is
      assumed to round-trip (`matches(hash(p), p)`) and signing to succeed. */
  lemma RegisterThenLogin(users: Users.UserTable, email: string, password: string, name: string,
                          hash: string -> Result<string>, matches: (string, string) -> bool,
                          sign: (Alg, Claims) -> Result<string>, freshId: string, now: Instant, later: Instant)
    requires Users.WellFormed(users)
    requires forall u :: u in users ==> u.id != freshId && u.email != email
    requires hash(password).Ok? && matches(hash(password).value, password)
    requires sign(HS256, IssuedClaims(freshId, later)).Ok?
    ensures var reg := RegisterUser(Ok(RegisterRequest(email, password, name)), hash, users, freshId, now, None);
            && reg.reply.Reply? && reg.reply.status == StatusCreated
            && Login(Ok(LoginRequest(email, password)), reg.users, None, matches, sign, later)
               == Reply(StatusOK, TokenJson(sign(HS256, IssuedClaims(freshId, later)).value))
  {
    var reg := RegisterUser(Ok(RegisterRequest(email, password, name)), hash, users, freshId, now, None);
    Users.InsertKeepsWellFormed(users, Users.User("", email, name, hash(password).value, 0, 0), freshId, now, None);
    Users.LookupFindsTheMatch(reg.users, Users.ByEmail(email), |users|);
  }

  /** Go's nil slice and the client's `data || []` cancel out: whatever rows the server
      lists, the client ends up with exactly those rows, in order, `null` included. */
  lemma DecodeTodoSlice(rows: seq<Todo>)
    ensures TodoList.FetchTodos(TodoList.Received(true, DecodeList(TodoSlice(rows))))
            == seq(|rows|, i requires 0 <= i < |rows| => ToClient(rows[i]))
  {
  }

  /** After `fetchTodos` against a healthy server the client holds exactly the caller's
      todos, also when the caller has none and the server answers `null`. */
  lemma ClientListIsCallersTodos(ctx: Context, todos: Table, order: seq<string>)
    requires CallerId(ctx).Some? && WellFormed(todos) && IsScanOrder(order, todos)
    ensures var reply := HandleGetTodos(ctx, todos, order, None, None);
            && reply.Reply? && reply.status == StatusOK
            && var shown := TodoList.FetchTodos(TodoList.Received(true, DecodeList(reply.body)));
               forall c :: c in shown <==> exists k :: k in todos && todos[k].userId == CallerId(ctx).value && ToClient(todos[k]) == c
  {
    var owner := CallerId(ctx).value;
    var reply := HandleGetTodos(ctx, todos, order, None, None);
    var rows := TodoStore.Get(todos, order, owner, None, None).value;
    assert reply.body == TodoSlice(rows);
    var shown := TodoList.FetchTodos(TodoList.Received(true, DecodeList(reply.body)));
    assert |shown| == |rows| && forall i :: 0 <= i < |rows| ==> shown[i] == ToClient(rows[i]);
    forall c | c in shown
      ensures exists k :: k in todos && todos[k].userId == owner && ToClient(todos[k]) == c
    {
      var i :| 0 <= i < |shown| && shown[i] == c;
      assert rows[i] in rows;
      var k := rows[i].id;
      assert k in todos && todos[k] == rows[i];
    }
    forall k | k in todos && todos[k].userId == owner
      ensures ToClient(todos[k]) in shown
    {
      assert todos[k] in rows;
      var i :| 0 <= i < |rows| && rows[i] == todos[k];
      assert shown[i] == ToClient(todos[k]);
    }
  }
}

=== FILE: text.dfy ===
/** String helpers the server relies on: the separator join the todo store uses to
    assemble its SET list, and Go's `strings.Split` with a one-character separator,
    which the authorization gate uses to take the header apart.
 */
module Text {

  /** Sum of the lengths of `parts`. */
  function TotalLength(parts: seq<string>): nat
  {
    if |parts| == 0 then 0 else |parts[0]| + TotalLength(parts[1..])
  }

  /** Reference definition of joining: the parts, in order, with `sep` between
      consecutive elements and nowhere else. */
  function Join(parts: seq<string>, sep: string): (r: string)
    ensures |parts| == 0 ==> |r| == 0
    ensures |parts| > 0 ==> |r| == TotalLength(parts) + (|parts| - 1) * |sep|
  {
    if |parts| == 0 then ""
    else if |parts| == 1 then parts[0]
    else parts[0] + sep + Join(parts[1..], sep)
  }

  /** Appending one more part adds one separator (if something came before) and the part. */
  lemma {:induction false} JoinSnoc(parts: seq<string>, sep: string, last: string)
    ensures Join(parts + [last], sep) == if |parts| == 0 then last else Join(parts, sep) + sep + last
    decreases |parts|
  {
    if |parts| == 0 {
      assert parts + [last] == [last];
    } else if |parts| == 1 {
      assert parts + [last] == [parts[0], last];
      assert [parts[0], last][1..] == [last];
    } else {
      assert (parts + [last])[1..] == parts[1..] + [last];
      JoinSnoc(parts[1..], sep, last);
    }
  }

  /** The accumulating loop of `stringJoin`: it writes `sep` before every part but the
      first, and so computes exactly `Join`. */
  method StringJoin(parts: seq<string>, sep: string) returns (result: string)
    ensures result == Join(parts, sep)
  {
    result := "";
    for i := 0 to |parts|
      invariant result == Join(parts[..i], sep)
    {
      if i > 0 {
        result := result + sep;
      }
      result := result + parts[i];
      JoinSnoc(parts[..i], sep, parts[i]);
      assert parts[..i + 1] == parts[..i] + [parts[i]];
    }
    assert parts[..|parts|] == parts;
  }

  /** `joinWithComma`: the SET list separator of the UPDATE statement. */
  method JoinWithComma(parts: seq<string>) returns (result: string)
    ensures result == Join(parts, ", ")
  {
    result := StringJoin(parts, ", ");
  }

  /** Number of occurrences of `c` in `s`. */
  function Count(s: string, c: char): nat
  {
    if |s| == 0 then 0 else (if s[0] == c then 1 else 0) + Count(s[1..], c)
  }

  /** Go's `strings.Split(s, string(c))`: the maximal runs between occurrences of `c`.
      The empty string splits into one empty part. */
  function Split(s: string, c: char): (parts: seq<string>)
    ensures |parts| == Count(s, c) + 1
    ensures forall i :: 0 <= i < |parts| ==> c !in parts[i]
    decreases |s|
  {
    if |s| == 0 then [""]
    else
      var rest := Split(s[1..], c);
      if s[0] == c then [""] + rest
      else [[s[0]] + rest[0]] + rest[1..]
  }

  /** A string without the separator is a single part. */
  lemma {:induction false} SplitWithoutSeparator(p: string, c: char)
    requires c !in p
    ensures Split(p, c) == [p]
    decreases |p|
  {
    if |p| > 0 {
      SplitWithoutSeparator(p[1..], c);
      assert [p[0]] + p[1..] == p;
    }
  }

  /** A leading separator-free part followed by the separator splits off as one part. */
  lemma {:induction false} SplitAfterPart(p: string, c: char, rest: string)
    requires c !in p
    ensures Split(p + [c] + rest, c) == [p] + Split(rest, c)
    decreases |p|
  {
    var s := p + [c] + rest;
    if |p| == 0 {
      assert s == [c] + rest;
      assert s[1..] == rest;
    } else {
      assert s[0] == p[0];
      assert s[1..] == p[1..] + [c] + rest;
      SplitAfterPart(p[1..], c, rest);
      assert [p[0]] + p[1..] == p;
    }
  }

  /** Splitting and re-joining with the same separator gives back the string. */
  lemma {:induction false} JoinSplit(s: string, c: char)
    ensures Join(Split(s, c), [c]) == s
    decreases |s|
  {
    if |s| > 0 {
      var rest := Split(s[1..], c);
      JoinSplit(s[1..], c);
      if s[0] == c {
        assert ([""] + rest)[1..] == rest;
        assert [c] + s[1..] == s;
      } else if |rest| == 1 {
        assert [s[0]] + s[1..] == s;
      } else {
        var parts := [[s[0]] + rest[0]] + rest[1..];
        assert parts[1..] == rest[1..];
        assert [s[0]] + s[1..] == s;
      }
    }
  }

  /** Joining separator-free parts and splitting again gives back the parts. */
  lemma {:induction false} SplitJoin(parts: seq<string>, c: char)
    requires |parts| > 0
    requires forall i :: 0 <= i < |parts| ==> c !in parts[i]
    ensures Split(Join(parts, [c]), c) == parts
    decreases |parts|
  {
    if |parts| == 1 {
      SplitWithoutSeparator(parts[0], c);
    } else {
      SplitJoin(parts[1..], c);
      assert parts[0] + [c] + Join(parts[1..], [c]) == Join(parts, [c]);
      SplitAfterPart(parts[0], c, Join(parts[1..], [c]));
      assert [parts[0]] + parts[1..] == parts;
    }
  }
}

=== FILE: todo_handlers.dfy ===
/** The todo handlers (cmd/api/todo_handlers.go) as maps from the request, the store's
    outcome and the context user to a reply. Every store call takes its owner from the
    user in the request context; a nil user pointer there makes the handler panic when
    it reads `user.Id`.
 */
module TodoHandlers {
  import opened Base
  import opened TodoStore
  import opened RequestContext
  import opened Http

  /** The reply and the table afterwards. */
  datatype Exchange = Exchange(reply: Reply, todos: Table)

  /** `app.GetUserFromContext(c).Id`: the owner every store call uses, or `None` when
      the context holds a nil user pointer and reading the id panics. */
  function CallerId(ctx: Context): (r: Option<string>)
    ensures r.None? <==> GetUserFromContext(ctx).None?
    ensures r.Some? ==> r.value == GetUserFromContext(ctx).value.id
  {
    match GetUserFromContext(ctx)
    case None => None
    case Some(u) => Some(u.id)
  }

  const InvalidRequest := Reply(StatusBadRequest, Problem("INVALID_REQUEST", "Invalid request body"))
  const ValidationFailed := Reply(StatusBadRequest, Problem("VALIDATION_ERROR", "Validation failed"))

  /** `handleGetTodos`: 200 with exactly the caller's todos (`null` when there are
      none), or 500 when the store fails. */
  function HandleGetTodos(ctx: Context, todos: Table, order: seq<string>,
                          queryFault: Option<string>, scanFault: Option<string>): (r: Reply)
    requires WellFormed(todos) && IsScanOrder(order, todos)
    ensures CallerId(ctx).None? ==> r == Crash(NilUserDereference)
    ensures CallerId(ctx).Some? && queryFault.Some? ==>
              r == Reply(StatusInternalServerError, Problem("INTERNAL_ERROR", "Failed to fetch todos"))
    ensures CallerId(ctx).Some? && queryFault.None? && scanFault.None? ==> r.Reply? && r.status == StatusOK
    ensures r.Reply? ==> r.status == StatusOK || r.status == StatusInternalServerError
    ensures r.Reply? && r.status == StatusOK ==>
              && (r.body == Null || r.body.TodoArray?)
              && var listed := if r.body == Null then [] else r.body.items;
                 forall t :: t in listed <==> t.id in todos && todos[t.id] == t && t.userId == CallerId(ctx).value
    ensures r.Reply? && r.status == StatusOK && r.body.TodoArray? ==>
              forall i, j :: 0 <= i < j < |r.body.items| ==> r.body.items[i].id != r.body.items[j].id
    ensures r.Reply? && r.status == StatusOK ==>
              (r.body == Null <==> forall k :: k in todos ==> todos[k].userId != CallerId(ctx).value)
    ensures CallerId(ctx).Some? && Get(todos, order, CallerId(ctx).value, queryFault, scanFault).Err? ==>
              r == Reply(StatusInternalServerError, Problem("INTERNAL_ERROR", "Failed to fetch todos"))
  {
    match CallerId(ctx)
    case None => Crash(NilUserDereference)
    case Some(owner) =>
      match Get(todos, order, owner, queryFault, scanFault)
      case Err(_) => Reply(StatusInternalServerError, Problem("INTERNAL_ERROR", "Failed to fetch todos"))
      case Ok(rows) => Reply(StatusOK, TodoSlice(rows))
  }

  /** `handleCreateTodo`: a body that does not bind or a title that fails
      `required,min=3` is answered 400 without touching the store; otherwise the todo
      is inserted for the caller and returned with 201, or 500 when the insert fails. */
  function HandleCreateTodo(ctx: Context, request: Result<TodoCreate>, todos: Table,
                            freshId: string, now: Instant, fault: Option<string>): (r: Exchange)
    requires freshId !in todos
    ensures request.Err? ==> r == Exchange(InvalidRequest, todos)
    ensures request.Ok? && !ValidCreate(request.value) ==> r == Exchange(ValidationFailed, todos)
    ensures request.Ok? && |request.value.title| < MinTitleLength ==> r.reply.status == StatusBadRequest
    ensures r.reply.Reply? && r.reply.status != StatusCreated ==> r.todos == todos
    ensures request.Ok? && ValidCreate(request.value) && CallerId(ctx).Some? && fault.Some? ==>
              r == Exchange(Reply(StatusInternalServerError, Problem("INTERNAL_ERROR", "Failed to create todo")), todos)
    ensures r.reply.Reply? && r.reply.status == StatusCreated ==>
              && request.Ok? && ValidCreate(request.value) && fault.None? && CallerId(ctx).Some?
              && r.todos.Keys == todos.Keys + {freshId}
              && r.reply.body == TodoJson(r.todos[freshId])
              && r.todos[freshId] == Todo(freshId, request.value.title, request.value.description,
                                          false, now, CallerId(ctx).value)
              && forall k :: k in todos ==> r.todos[k] == todos[k]
    ensures request.Ok? && ValidCreate(request.value) && CallerId(ctx).Some? && fault.None? ==>
              r.reply.Reply? && r.reply.status == StatusCreated
    ensures request.Ok? && ValidCreate(request.value) && CallerId(ctx).None? ==>
              r == Exchange(Crash(NilUserDereference), todos)
  {
    match request
    case Err(_) => Exchange(InvalidRequest, todos)
    case Ok(input) =>
      if !ValidCreate(input) then Exchange(ValidationFailed, todos)
      else match CallerId(ctx)
        case None => Exchange(Crash(NilUserDereference), todos)
        case Some(owner) =>
          var s := Insert(todos, input, owner, freshId, now, fault);
          match s.result
          case Err(_) =>
            Exchange(Reply(StatusInternalServerError, Problem("INTERNAL_ERROR", "Failed to create todo")), todos)
          case Ok(todo) => Exchange(Reply(StatusCreated, TodoJson(todo)), s.todos)
  }

  /** The error text `handleUpdateTodo` matches for an empty patch. */
  const NoUpdatesProvided := "no updates provided"

  /** The reply to a failed update, given the text that means "empty patch". */
  function UpdateFailure(error: string, emptyPatchError: string): (r: Reply)
    ensures error == TodoNotFound ==> r == Reply(StatusNotFound, Problem("NOT_FOUND", "Todo not found"))
    ensures error == emptyPatchError && error != TodoNotFound ==>
              r == Reply(StatusBadRequest, Problem("VALIDATION_ERROR", "No updates provided"))
    ensures error != TodoNotFound && error != emptyPatchError ==>
              r == Reply(StatusInternalServerError, Problem("INTERNAL_ERROR", "Failed to update todo"))
  {
    if error == TodoNotFound then Reply(StatusNotFound, Problem("NOT_FOUND", "Todo not found"))
    else if error == emptyPatchError then Reply(StatusBadRequest, Problem("VALIDATION_ERROR", "No updates provided"))
    else Reply(StatusInternalServerError, Problem("INTERNAL_ERROR", "Failed to update todo"))
  }

  /** The update handler, parameterised by the error text it treats as "empty patch". */
  function UpdateWith(ctx: Context, id: string, request: Result<TodoPatch>, todos: Table,
                      fault: Option<string>, emptyPatchError: string): Exchange
  {
    match request
    case Err(_) => Exchange(InvalidRequest, todos)
    case Ok(patch) =>
      if !ValidPatch(patch) then Exchange(ValidationFailed, todos)
      else match CallerId(ctx)
        case None => Exchange(Crash(NilUserDereference), todos)
        case Some(owner) =>
          var s := Update(todos, id, Some(patch), owner, fault);
          match s.result
          case Err(e) => Exchange(UpdateFailure(e, emptyPatchError), s.todos)
          case Ok(todo) => Exchange(Reply(StatusOK, TodoJson(todo)), s.todos)
  }

  /** `handleUpdateTodo` as written: a short present title is refused with 400 before the
      store is called; a missing row (absent, or someone else's) is 404; the caller's row
      takes exactly the patch and is returned with 200. The store reports an empty patch
      as "no fields to update", which this handler does not recognise, so an empty patch
      is answered 500. */
  function HandleUpdateTodo(ctx: Context, id: string, request: Result<TodoPatch>, todos: Table,
                            fault: Option<string>): (r: Exchange)
    ensures request.Err? ==> r == Exchange(InvalidRequest, todos)
    ensures request.Ok? && !ValidPatch(request.value) ==> r == Exchange(ValidationFailed, todos)
    ensures request.Ok? && ValidPatch(request.value) && CallerId(ctx).Some? ==>
              var patch := request.value;
              var owner := CallerId(ctx).value;
              && (|PresentFields(patch)| == 0 ==>
                    r == Exchange(Reply(StatusInternalServerError, Problem("INTERNAL_ERROR", "Failed to update todo")), todos))
              && (|PresentFields(patch)| > 0 && fault.Some? ==>
                    r == Exchange(Reply(StatusInternalServerError, Problem("INTERNAL_ERROR", "Failed to update todo")), todos))
              && (|PresentFields(patch)| > 0 && fault.None? && !Owns(todos, id, owner) ==>
                    r == Exchange(Reply(StatusNotFound, Problem("NOT_FOUND", "Todo not found")), todos))
              && (|PresentFields(patch)| > 0 && fault.None? && Owns(todos, id, owner) ==>
                    r == Exchange(Reply(StatusOK, TodoJson(ApplyPatch(todos[id], patch))),
                                  todos[id := ApplyPatch(todos[id], patch)]))
    ensures r.reply.Reply? && r.reply.status != StatusOK ==> r.todos == todos
    ensures request.Ok? && ValidPatch(request.value) && CallerId(ctx).None? ==>
              r == Exchange(Crash(NilUserDereference), todos)
  {
    DatabaseFailureIsNoKnownText(fault);
    UpdateWith(ctx, id, request, todos, fault, NoUpdatesProvided)
  }

  /** A database failure's "update failed: …" text is neither "todo not found" nor
      either empty-patch text, so the handlers answer it with 500. */
  lemma DatabaseFailureIsNoKnownText(fault: Option<string>)
    ensures fault.Some? ==>
              var e := "update failed: " + fault.value;
              e != TodoNotFound && e != NoUpdatesProvided && e != NoFieldsToUpdate
  {
    if fault.Some? {
      var e := "update failed: " + fault.value;
      assert e[0] == 'u';
      assert TodoNotFound[0] == 't' && NoUpdatesProvided[0] == 'n' && NoFieldsToUpdate[0] == 'n';
    }
  }

  /** `handleUpdateTodo` matching the store's actual empty-patch text: an empty patch is
      a 400 validation error; everything else is as in `HandleUpdateTodo`. */
  function HandleUpdateTodoFixed(ctx: Context, id: string, request: Result<TodoPatch>, todos: Table,
                                 fault: Option<string>): (r: Exchange)
    ensures request.Ok? && |PresentFields(request.value)| == 0 && CallerId(ctx).Some? ==>
              r == Exchange(Reply(StatusBadRequest, Problem("VALIDATION_ERROR", "No updates provided")), todos)
    ensures request.Err? ==> r == Exchange(InvalidRequest, todos)
    ensures r.reply.Reply? && r.reply.status != StatusOK ==> r.todos == todos
    ensures request.Ok? && ValidPatch(request.value) && CallerId(ctx).None? ==>
              r == Exchange(Crash(NilUserDereference), todos)
  {
    UpdateWith(ctx, id, request, todos, fault, NoFieldsToUpdate)
  }

  /** The two update handlers answer alike on every request but an empty patch: no other
      store error can be mistaken for either empty-patch text. */
  lemma {:induction false} FixedDiffersOnlyOnEmptyPatch(ctx: Context, id: string, request: Result<TodoPatch>,
                                                        todos: Table, fault: Option<string>)
    requires request.Ok? ==> |PresentFields(request.value)| > 0
    ensures HandleUpdateTodoFixed(ctx, id, request, todos, fault) == HandleUpdateTodo(ctx, id, request, todos, fault)
  {
    if request.Ok? && ValidPatch(request.value) && CallerId(ctx).Some? {
      var s := Update(todos, id, Some(request.value), CallerId(ctx).value, fault);
      if s.result.Err? && s.result.error != TodoNotFound {
        var e := s.result.error;
        assert e == "update failed: " + fault.value;
        assert e[0] == 'u';
        assert NoUpdatesProvided[0] == 'n' && NoFieldsToUpdate[0] == 'n';
      }
    }
  }

  /** `handleDeleteTodo`: 204 with no body once the caller's row is gone; 404 when no
      row has this id and the caller as owner; 500 on a store failure. */
  function HandleDeleteTodo(ctx: Context, id: string, todos: Table,
                            execFault: Option<string>, countFault: Option<string>): (r: Exchange)
    ensures CallerId(ctx).None? ==> r == Exchange(Crash(NilUserDereference), todos)
    ensures CallerId(ctx).Some? && execFault.None? && countFault.None? ==>
              var owner := CallerId(ctx).value;
              if Owns(todos, id, owner) then r == Exchange(Reply(StatusNoContent, NoContent), todos - {id})
              else r == Exchange(Reply(StatusNotFound, Problem("NOT_FOUND", "Todo not found")), todos)
    ensures CallerId(ctx).Some? && (execFault.Some? || countFault.Some?) ==>
              r.reply == Reply(StatusInternalServerError, Problem("INTERNAL_ERROR", "Failed to delete todo"))
    ensures CallerId(ctx).Some? && execFault.Some? ==> r.todos == todos
    ensures CallerId(ctx).Some? && execFault.None? && countFault.Some? ==>
              r.todos == if Owns(todos, id, CallerId(ctx).value) then todos - {id} else todos
    ensures forall k :: k in r.todos ==> k in todos && r.todos[k] == todos[k]
    ensures forall k :: k in todos && k !in r.todos ==> k == id && todos[k].userId == CallerId(ctx).value
  {
    match CallerId(ctx)
    case None => Exchange(Crash(NilUserDereference), todos)
    case Some(owner) =>
      var s := Delete(todos, id, owner, execFault, countFault);
      match s.result
      case Err(e) =>
        if e == TodoNotFound then Exchange(Reply(StatusNotFound, Problem("NOT_FOUND", "Todo not found")), s.todos)
        else Exchange(Reply(StatusInternalServerError, Problem("INTERNAL_ERROR", "Failed to delete todo")), s.todos)
      case Ok(_) => Exchange(Reply(StatusNoContent, NoContent), s.todos)
  }
}

=== FILE: todo_list.dfy ===
/** The client's list state (client/src/components/todo/todo-list.tsx): the view filter
    and how each server response changes the list. Rendering, toasts and the fetch calls
    themselves are not modelled; a request's outcome is a parameter.
 */
module TodoList {
  import opened Base

  /** The `Todo` interface of the client. */
  datatype ClientTodo = ClientTodo(id: string, title: string, description: string, completed: bool)

  datatype FilterType = All | Active | Completed

  /** The predicate of `filteredTodos`. */
  predicate Shows(filter: FilterType, t: ClientTodo)
  {
    match filter
    case Active => !t.completed
    case Completed => t.completed
    case All => true
  }

  /** `filteredTodos`: the todos the filter shows, in list order. */
  function FilteredTodos(todos: seq<ClientTodo>, filter: FilterType): (r: seq<ClientTodo>)
    ensures forall t :: t in r <==> t in todos && Shows(filter, t)
    ensures |r| <= |todos|
  {
    if |todos| == 0 then []
    else
      var rest := FilteredTodos(todos[1..], filter);
      assert forall t :: t in todos <==> t == todos[0] || t in todos[1..];
      if Shows(filter, todos[0]) then [todos[0]] + rest else rest
  }

  /** Filtering distributes over concatenation, so it keeps the list order. */
  lemma {:induction false} FilterConcat(a: seq<ClientTodo>, b: seq<ClientTodo>, filter: FilterType)
    ensures FilteredTodos(a + b, filter) == FilteredTodos(a, filter) + FilteredTodos(b, filter)
    decreases |a|
  {
    if |a| == 0 {
      assert a + b == b;
    } else {
      assert (a + b)[0] == a[0];
      assert (a + b)[1..] == a[1..] + b;
      FilterConcat(a[1..], b, filter);
    }
  }

  /** The filter `all` leaves the list as it is. */
  lemma {:induction false} FilterAllIsIdentity(todos: seq<ClientTodo>)
    ensures FilteredTodos(todos, All) == todos
    decreases |todos|
  {
    if |todos| > 0 {
      FilterAllIsIdentity(todos[1..]);
      assert [todos[0]] + todos[1..] == todos;
    }
  }

  /** `active` and `completed` split the list: every todo lands in exactly one of them. */
  lemma {:induction false} ActiveCompletedPartition(todos: seq<ClientTodo>)
    ensures multiset(FilteredTodos(todos, Active)) + multiset(FilteredTodos(todos, Completed)) == multiset(todos)
    ensures |FilteredTodos(todos, Active)| + |FilteredTodos(todos, Completed)| == |todos|
    decreases |todos|
  {
    if |todos| > 0 {
      ActiveCompletedPartition(todos[1..]);
      assert [todos[0]] + todos[1..] == todos;
      assert multiset(todos) == multiset([todos[0]]) + multiset(todos[1..]);
    }
  }

  /** `addTodo`: on a 2xx reply the created todo is appended; otherwise nothing changes. */
  function AddTodo(todos: seq<ClientTodo>, ok: bool, created: ClientTodo): (r: seq<ClientTodo>)
    ensures ok ==> |r| == |todos| + 1 && r[..|todos|] == todos && r[|todos|] == created
    ensures !ok ==> r == todos
  {
    if ok then todos + [created] else todos
  }

  /** A created todo shows up at the end of the current view exactly when the filter
      shows it; the rest of the view is unchanged. */
  lemma {:induction false} AddedTodoIsFiltered(todos: seq<ClientTodo>, created: ClientTodo, filter: FilterType)
    ensures FilteredTodos(AddTodo(todos, true, created), filter)
            == FilteredTodos(todos, filter) + (if Shows(filter, created) then [created] else [])
  {
    FilterConcat(todos, [created], filter);
    assert [created][1..] == [];
  }

  /** `todos.filter(todo => todo.id !== id)`. */
  function WithoutId(todos: seq<ClientTodo>, id: string): (r: seq<ClientTodo>)
    ensures forall t :: t in r <==> t in todos && t.id != id
    ensures |r| <= |todos|
  {
    if |todos| == 0 then []
    else
      var rest := WithoutId(todos[1..], id);
      assert forall t :: t in todos <==> t == todos[0] || t in todos[1..];
      if todos[0].id != id then [todos[0]] + rest else rest
  }

  /** Removing by id keeps the survivors in order. */
  lemma {:induction false} WithoutIdConcat(a: seq<ClientTodo>, b: seq<ClientTodo>, id: string)
    ensures WithoutId(a + b, id) == WithoutId(a, id) + WithoutId(b, id)
    decreases |a|
  {
    if |a| == 0 {
      assert a + b == b;
    } else {
      assert (a + b)[0] == a[0];
      assert (a + b)[1..] == a[1..] + b;
      WithoutIdConcat(a[1..], b, id);
    }
  }

  /** A list without the id is left as it is. */
  lemma {:induction false} WithoutAbsentId(todos: seq<ClientTodo>, id: string)
    requires forall i :: 0 <= i < |todos| ==> todos[i].id != id
    ensures WithoutId(todos, id) == todos
    decreases |todos|
  {
    if |todos| > 0 {
      WithoutAbsentId(todos[1..], id);
      assert [todos[0]] + todos[1..] == todos;
    }
  }

  /** `onDelete`: on a 2xx reply every todo with this id goes and the rest stay in
      order; otherwise nothing changes. */
  function OnDelete(todos: seq<ClientTodo>, id: string, ok: bool): (r: seq<ClientTodo>)
    ensures ok ==> forall t :: t in r <==> t in todos && t.id != id
    ensures !ok ==> r == todos
  {
    if ok then WithoutId(todos, id) else todos
  }

  /** Removing an id and filtering the view can be done in either order. */
  lemma {:induction false} DeleteCommutesWithFilter(todos: seq<ClientTodo>, id: string, filter: FilterType)
    ensures FilteredTodos(OnDelete(todos, id, true), filter) == OnDelete(FilteredTodos(todos, filter), id, true)
    decreases |todos|
  {
    if |todos| > 0 {
      DeleteCommutesWithFilter(todos[1..], id, filter);
    }
  }

  /** `todos.map(todo => todo.id === id ? { ...todo, completed } : todo)`. */
  function SetCompleted(todos: seq<ClientTodo>, id: string, completed: bool): (r: seq<ClientTodo>)
    ensures |r| == |todos|
    ensures forall i :: 0 <= i < |todos| ==>
              r[i] == if todos[i].id == id then todos[i].(completed := completed) else todos[i]
  {
    if |todos| == 0 then []
    else [if todos[0].id == id then todos[0].(completed := completed) else todos[0]]
         + SetCompleted(todos[1..], id, completed)
  }

  /** `onToggle`: on a 2xx reply the todos with this id take the new flag and nothing
      else changes; otherwise the list is unchanged. */
  function OnToggle(todos: seq<ClientTodo>, id: string, completed: bool, ok: bool): (r: seq<ClientTodo>)
    ensures |r| == |todos|
    ensures forall i :: 0 <= i < |todos| ==>
              r[i].id == todos[i].id && r[i].title == todos[i].title && r[i].description == todos[i].description
    ensures ok ==> forall i :: 0 <= i < |todos| ==>
              r[i].completed == if todos[i].id == id then completed else todos[i].completed
    ensures !ok ==> r == todos
  {
    if ok then SetCompleted(todos, id, completed) else todos
  }

  /** After a successful toggle the todo shows under the matching filter. */
  lemma ToggledTodoIsFiltered(todos: seq<ClientTodo>, id: string, i: nat)
    requires i < |todos| && todos[i].id == id
    ensures OnToggle(todos, id, true, true)[i] in FilteredTodos(OnToggle(todos, id, true, true), Completed)
    ensures OnToggle(todos, id, false, true)[i] in FilteredTodos(OnToggle(todos, id, false, true), Active)
  {
  }

  /** How `fetchTodos` ended: the request or the JSON decoding threw, or a response
      arrived with its `ok` flag and its decoded body (`None` for JSON `null`). */
  datatype FetchResponse = Failed | Received(ok: bool, body: Option<seq<ClientTodo>>)

  /** `fetchTodos`: the list becomes the body of a 2xx reply, `null` read as empty; any
      failure empties the list. */
  function FetchTodos(response: FetchResponse): (r: seq<ClientTodo>)
    ensures response.Failed? || !response.ok ==> r == []
    ensures response.Received? && response.ok && response.body.None? ==> r == []
    ensures response.Received? && response.ok && response.body.Some? ==> r == response.body.value
  {
    match response
    case Failed => []
    case Received(ok, body) => if !ok then [] else body.GetOr([])
  }
}

=== FILE: todo_store.dfy ===
/** The `todos` table and its model (internal/database/todo.go).

    Every read and write is filtered by the owner. The partial update is assembled
    as data: an ordered list of `column = $n` assignments, the two WHERE slots and
    the positional arguments; `Execute` gives that statement its meaning on the table,
    so the builder can be checked against the intended patch semantics `ApplyPatch`.
    Store failures are parameters (`fault`), as are the generated id and the clock.
 */
module TodoStore {
  import opened Base

  datatype Todo = Todo(id: string, title: string, description: Option<string>,
                       completed: bool, createdAt: Instant, userId: string)

  /** Body of a create request. */
  datatype TodoCreate = TodoCreate(title: string, description: Option<string>)

  /** Body of a patch request: each field independently present or absent. */
  datatype TodoPatch = TodoPatch(title: Option<string>, description: Option<string>, completed: Option<bool>)

  /** The table, keyed by primary key. */
  type Table = map<string, Todo>

  predicate WellFormed(todos: Table)
  {
    forall k :: k in todos ==> todos[k].id == k
  }

  /** There is a row with this id and this owner. */
  predicate Owns(todos: Table, id: string, userId: string)
  {
    id in todos && todos[id].userId == userId
  }

  /** The outcome of a store call and the table afterwards. */
  datatype Step<T> = Step(result: Result<T>, todos: Table)

  const NilPatch := "nil patch"
  const NoFieldsToUpdate := "no fields to update"
  const TodoNotFound := "todo not found"
  /** The text of `sql.ErrNoRows`. */
  const NoRows := "sql: no rows in result set"
  /** What the database reports when a value does not fit its column. */
  const BadParameter := "invalid input for column"

  // ---------------------------------------------------------------- validation

  const MinTitleLength := 3

  /** `validate:"required,min=3"` on the title of a create request. */
  predicate ValidCreate(input: TodoCreate)
  {
    input.title != "" && |input.title| >= MinTitleLength
  }

  /** `validate:"omitempty,min=3"` on the title of a patch: an absent title passes,
      a present one (even the empty string) needs three characters. */
  predicate ValidPatch(patch: TodoPatch)
  {
    patch.title.None? || |patch.title.value| >= MinTitleLength
  }

  /** `required,min=3` on a create: the title needs at least three characters (runes,
      as Go's validator counts them), so the empty title is refused too. */
  lemma CreateTitleRule(input: TodoCreate)
    ensures ValidCreate(input) <==> |input.title| >= 3
    ensures !ValidCreate(TodoCreate("", input.description))
  {
  }

  /** `omitempty,min=3` on a patch: an absent title passes, any present title, even the
      empty string, needs at least three characters, and the other fields are never
      checked. */
  lemma PatchTitleRule(patch: TodoPatch)
    ensures ValidPatch(patch) <==> patch.title.None? || |patch.title.value| >= 3
    ensures !ValidPatch(patch.(title := Some("")))
    ensures ValidPatch(patch.(title := None))
  {
  }

  // ---------------------------------------------------------------------- Get

  /** `order` lists every key of the table once: the order the database scans rows
      in, since the query has no ORDER BY. */
  predicate IsScanOrder(order: seq<string>, todos: Table)
  {
    && (forall i, j :: 0 <= i < j < |order| ==> order[i] != order[j])
    && (forall k :: k in order ==> k in todos)
    && (forall k :: k in todos ==> k in order)
  }

  /** The rows `WHERE user_id = userId`, in scan order. */
  function OwnedRows(todos: Table, order: seq<string>, userId: string): (rows: seq<Todo>)
    requires WellFormed(todos)
    requires forall k :: k in order ==> k in todos
    requires forall i, j :: 0 <= i < j < |order| ==> order[i] != order[j]
    ensures forall t :: t in rows <==> t.id in order && t.id in todos && todos[t.id] == t && t.userId == userId
    ensures forall i, j :: 0 <= i < j < |rows| ==> rows[i].id != rows[j].id
    ensures |rows| == 0 <==> forall k :: k in order ==> todos[k].userId != userId
  {
    if |order| == 0 then []
    else
      var rest := OwnedRows(todos, order[1..], userId);
      assert forall k :: k in order <==> k == order[0] || k in order[1..];
      if todos[order[0]].userId == userId then [todos[order[0]]] + rest else rest
  }

  /** `Get`: exactly the caller's rows, each once; rows of other owners never appear.
      A failing query or row scan yields no rows and the error. As in the source,
      an empty result is a nil slice (JSON `null`). */
  function Get(todos: Table, order: seq<string>, userId: string,
               queryFault: Option<string>, scanFault: Option<string>): (r: Result<seq<Todo>>)
    requires WellFormed(todos) && IsScanOrder(order, todos)
    ensures queryFault.Some? ==> r == Err("query failed: " + queryFault.value)
    ensures queryFault.None? && scanFault.None? ==> r.Ok?
    ensures r.Ok? ==> forall t :: t in r.value <==> t.id in todos && todos[t.id] == t && t.userId == userId
    ensures r.Ok? ==> forall i, j :: 0 <= i < j < |r.value| ==> r.value[i].id != r.value[j].id
    ensures r.Ok? ==> (|r.value| == 0 <==> forall k :: k in todos ==> todos[k].userId != userId)
    ensures r.Err? && queryFault.None? ==> r == Err("scan failed: " + scanFault.value)
    ensures queryFault.None? && scanFault.Some? && (exists k :: k in todos && todos[k].userId == userId) ==>
              r == Err("scan failed: " + scanFault.value)
    ensures queryFault.None? && (forall k :: k in todos ==> todos[k].userId != userId) ==> r.Ok?
  {
    if queryFault.Some? then Err("query failed: " + queryFault.value)
    else
      var rows := OwnedRows(todos, order, userId);
      if |rows| > 0 && scanFault.Some? then Err("scan failed: " + scanFault.value)
      else Ok(rows)
  }

  // ------------------------------------------------------------------- Insert

  /** `Insert`: one new row with the fresh id, the given title and description,
      `completed = false`, the clock's time and the caller as owner; the returned
      todo is that row and every other row is untouched. */
  function Insert(todos: Table, input: TodoCreate, userId: string, freshId: string,
                  now: Instant, fault: Option<string>): (r: Step<Todo>)
    requires freshId !in todos
    ensures fault.Some? ==> r == Step(Err("insert failed: " + fault.value), todos)
    ensures fault.None? ==> r.result.Ok?
    ensures r.result.Ok? ==>
              && r.result.value == Todo(freshId, input.title, input.description, false, now, userId)
              && r.todos.Keys == todos.Keys + {freshId}
              && r.todos[freshId] == r.result.value
              && forall k :: k in todos ==> r.todos[k] == todos[k]
  {
    if fault.Some? then Step(Err("insert failed: " + fault.value), todos)
    else
      var todo := Todo(freshId, input.title, input.description, false, now, userId);
      Step(Ok(todo), todos[freshId := todo])
  }

  // ------------------------------------------------------------------- Update

  /** The columns the SET list may name. */
  datatype Column = TitleColumn | DescriptionColumn | CompletedColumn | OwnerColumn

  /** A positional argument. */
  datatype Param = StringParam(s: string) | BoolParam(b: bool)

  /** One `column = $placeholder` item of the SET list. */
  datatype Assignment = Assignment(column: Column, placeholder: nat)

  /** `UPDATE todos SET sets WHERE id = $idSlot AND user_id = $ownerSlot`, with its
      arguments (`args[n - 1]` binds `$n`). */
  datatype UpdateQuery = UpdateQuery(sets: seq<Assignment>, idSlot: nat, ownerSlot: nat, args: seq<Param>)

  /** A column together with the value a patch gives it. */
  datatype Field = Field(column: Column, value: Param)

  /** The fields a patch supplies, in the fixed order title, description, is_completed. */
  function PresentFields(patch: TodoPatch): (fields: seq<Field>)
    ensures |fields| <= 3
    ensures forall i :: 0 <= i < |fields| ==> fields[i].column != OwnerColumn
  {
    (if patch.title.Some? then [Field(TitleColumn, StringParam(patch.title.value))] else [])
    + (if patch.description.Some? then [Field(DescriptionColumn, StringParam(patch.description.value))] else [])
    + (if patch.completed.Some? then [Field(CompletedColumn, BoolParam(patch.completed.value))] else [])
  }

  function Values(fields: seq<Field>): (values: seq<Param>)
    ensures |values| == |fields|
    ensures forall i :: 0 <= i < |fields| ==> values[i] == fields[i].value
  {
    if |fields| == 0 then [] else [fields[0].value] + Values(fields[1..])
  }

  /** The builder's running state: SET items, arguments so far, and `argIndex`. */
  datatype Builder = Builder(sets: seq<Assignment>, args: seq<Param>, next: nat)

  /** One `if patch.X != nil { ... argIndex++ }` block. */
  function Append(b: Builder, column: Column, value: Option<Param>): Builder
  {
    if value.Some? then Builder(b.sets + [Assignment(column, b.next)], b.args + [value.value], b.next + 1)
    else b
  }

  /** The field a builder step adds, if any. */
  function Fields(column: Column, value: Option<Param>): seq<Field>
  {
    if value.Some? then [Field(column, value.value)] else []
  }

  /** The builder state after the given fields: the i-th field's column on `$(i+1)`,
      its value as the i-th argument, and the next placeholder after them. */
  function Layout(fields: seq<Field>): Builder
  {
    Builder(seq(|fields|, i requires 0 <= i < |fields| => Assignment(fields[i].column, i + 1)),
            Values(fields), |fields| + 1)
  }

  /** Each builder step extends the layout by the field it adds. */
  lemma AppendLayout(fields: seq<Field>, column: Column, value: Option<Param>)
    ensures Append(Layout(fields), column, value) == Layout(fields + Fields(column, value))
  {
    if value.Some? {
      var extended := fields + [Field(column, value.value)];
      assert Values(extended) == Values(fields) + [value.value];
    }
  }

  /** The statement for the given fields in closed form: the fields on `$1..$k`,
      `user_id` on `$(k+1)`, and the WHERE clause's id and owner on `$(k+2)` and
      `$(k+3)`. */
  function LaidOut(id: string, fields: seq<Field>, userId: string): UpdateQuery
  {
    var b := Layout(fields + [Field(OwnerColumn, StringParam(userId))]);
    UpdateQuery(b.sets, b.next, b.next + 1, b.args + [StringParam(id), StringParam(userId)])
  }

  /** The closed form spelled out: the k fields in order on `$1..$k`, `user_id` on
      `$(k+1)`, `id` and `user_id` of the WHERE clause on `$(k+2)` and `$(k+3)`, and
      the arguments the field values followed by the caller, the id and the caller. */
  lemma LaidOutPlaceholders(id: string, fields: seq<Field>, userId: string)
    ensures var q := LaidOut(id, fields, userId);
            var k := |fields|;
            && |q.sets| == k + 1
            && (forall i :: 0 <= i < k ==> q.sets[i] == Assignment(fields[i].column, i + 1))
            && q.sets[k] == Assignment(OwnerColumn, k + 1)
            && q.idSlot == k + 2 && q.ownerSlot == k + 3
            && q.args == Values(fields) + [StringParam(userId), StringParam(id), StringParam(userId)]
  {
    var all := fields + [Field(OwnerColumn, StringParam(userId))];
    assert Values(all) == Values(fields) + [StringParam(userId)];
  }

  /** The SET list and arguments of the partial update, built as the source does:
      a present field gets the next placeholder, then `user_id` is set to the caller,
      then the WHERE clause takes the two following placeholders for the id and the
      caller. A patch with no present field is refused; any other patch gives exactly
      the closed-form statement for its present fields. */
  function BuildUpdate(id: string, patch: TodoPatch, userId: string): (r: Result<UpdateQuery>)
    ensures |PresentFields(patch)| == 0 <==> r.Err?
    ensures r.Err? ==> r.error == NoFieldsToUpdate
    ensures r.Ok? ==> r.value == LaidOut(id, PresentFields(patch), userId)
  {
    var b0 := Builder([], [], 1);
    var title := if patch.title.Some? then Some(StringParam(patch.title.value)) else None;
    var description := if patch.description.Some? then Some(StringParam(patch.description.value)) else None;
    var completed := if patch.completed.Some? then Some(BoolParam(patch.completed.value)) else None;
    var b1 := Append(b0, TitleColumn, title);
    var b2 := Append(b1, DescriptionColumn, description);
    var b3 := Append(b2, CompletedColumn, completed);
    assert b3 == Layout(PresentFields(patch)) by {
      assert b0 == Layout([]);
      AppendLayout([], TitleColumn, title);
      AppendLayout(Fields(TitleColumn, title), DescriptionColumn, description);
      AppendLayout(Fields(TitleColumn, title) + Fields(DescriptionColumn, description), CompletedColumn, completed);
      assert [] + Fields(TitleColumn, title) == Fields(TitleColumn, title);
    }
    if |b3.sets| == 0 then Err(NoFieldsToUpdate)
    else
      var b4 := Append(b3, OwnerColumn, Some(StringParam(userId)));
      AppendLayout(PresentFields(patch), OwnerColumn, Some(StringParam(userId)));
      Ok(UpdateQuery(b4.sets, b4.next, b4.next + 1, b4.args + [StringParam(id), StringParam(userId)]))
  }

  /** Every placeholder of the statement binds an argument, and no two share one. */
  predicate WellBound(q: UpdateQuery)
  {
    && (forall i :: 0 <= i < |q.sets| ==> 1 <= q.sets[i].placeholder <= |q.args|)
    && 1 <= q.idSlot <= |q.args| && 1 <= q.ownerSlot <= |q.args|
    && (forall i, j :: 0 <= i < j < |q.sets| ==> q.sets[i].placeholder != q.sets[j].placeholder)
    && (forall i :: 0 <= i < |q.sets| ==> q.sets[i].placeholder != q.idSlot && q.sets[i].placeholder != q.ownerSlot)
    && q.idSlot != q.ownerSlot
  }

  /** The built statement is well bound, its highest placeholder is its argument count,
      and the owner predicate never depends on the patch. */
  lemma BuiltQueryIsWellBound(id: string, patch: TodoPatch, userId: string)
    requires BuildUpdate(id, patch, userId).Ok?
    ensures WellBound(BuildUpdate(id, patch, userId).value)
    ensures var q := BuildUpdate(id, patch, userId).value;
              q.ownerSlot == |q.args| && q.args[q.idSlot - 1] == StringParam(id) && q.args[q.ownerSlot - 1] == StringParam(userId)
  {
    LaidOutPlaceholders(id, PresentFields(patch), userId);
  }

  /** The argument bound to `$slot`, if any. */
  function Arg(args: seq<Param>, slot: nat): Option<Param>
  {
    if 1 <= slot <= |args| then Some(args[slot - 1]) else None
  }

  /** Store a value in a column; `None` when the value does not fit the column. */
  function Assign(t: Todo, column: Column, value: Param): Option<Todo>
  {
    match (column, value)
    case (TitleColumn, StringParam(s)) => Some(t.(title := s))
    case (DescriptionColumn, StringParam(s)) => Some(t.(description := Some(s)))
    case (CompletedColumn, BoolParam(b)) => Some(t.(completed := b))
    case (OwnerColumn, StringParam(s)) => Some(t.(userId := s))
    case _ => None
  }

  /** Carry out the SET list on one row. */
  function AssignAll(t: Todo, sets: seq<Assignment>, args: seq<Param>): Option<Todo>
    decreases |sets|
  {
    if |sets| == 0 then Some(t)
    else match Arg(args, sets[0].placeholder)
      case None => None
      case Some(v) =>
        match Assign(t, sets[0].column, v)
        case None => None
        case Some(t') => AssignAll(t', sets[1..], args)
  }

  /** Meaning of an UPDATE ... RETURNING statement: the row whose id and owner match the
      WHERE arguments gets the SET list, and is returned; with no such row the
      statement returns no rows. */
  function Execute(todos: Table, q: UpdateQuery): Step<Todo>
  {
    match (Arg(q.args, q.idSlot), Arg(q.args, q.ownerSlot))
    case (Some(StringParam(id)), Some(StringParam(owner))) =>
      if Owns(todos, id, owner) then
        match AssignAll(todos[id], q.sets, q.args)
        case Some(t) => Step(Ok(t), todos[id := t])
        case None => Step(Err(BadParameter), todos)
      else Step(Err(NoRows), todos)
    case _ => Step(Err(BadParameter), todos)
  }

  /** Intended meaning of a patch: present fields overwrite, absent ones stay. */
  function ApplyPatch(t: Todo, patch: TodoPatch): Todo
  {
    t.(title := patch.title.GetOr(t.title),
       description := if patch.description.Some? then patch.description else t.description,
       completed := patch.completed.GetOr(t.completed))
  }

  /** Walking a list of fields one assignment at a time. */
  function ApplyFields(t: Todo, fields: seq<Field>): Option<Todo>
    decreases |fields|
  {
    if |fields| == 0 then Some(t)
    else match Assign(t, fields[0].column, fields[0].value)
      case None => None
      case Some(t') => ApplyFields(t', fields[1..])
  }

  /** A SET list whose i-th item names the i-th field's column and a placeholder bound
      to the i-th field's value does what the fields say. */
  lemma {:induction false} AssignAllFields(t: Todo, sets: seq<Assignment>, args: seq<Param>, fields: seq<Field>)
    requires |sets| == |fields|
    requires forall i :: 0 <= i < |sets| ==>
               sets[i].column == fields[i].column && Arg(args, sets[i].placeholder) == Some(fields[i].value)
    ensures AssignAll(t, sets, args) == ApplyFields(t, fields)
    decreases |sets|
  {
    if |sets| > 0 {
      match Assign(t, fields[0].column, fields[0].value)
      case None =>
      case Some(t') => AssignAllFields(t', sets[1..], args, fields[1..]);
    }
  }

  lemma {:induction false} ApplyFieldsAppend(t: Todo, a: seq<Field>, b: seq<Field>)
    ensures ApplyFields(t, a + b) == match ApplyFields(t, a) case None => None case Some(t') => ApplyFields(t', b)
    decreases |a|
  {
    if |a| == 0 {
      assert a + b == b;
    } else {
      assert (a + b)[0] == a[0];
      assert (a + b)[1..] == a[1..] + b;
      match Assign(t, a[0].column, a[0].value)
      case None =>
      case Some(t') => ApplyFieldsAppend(t', a[1..], b);
    }
  }

  /** Applying the present fields and then `user_id := userId` is the patch followed by
      an owner assignment. */
  lemma PresentFieldsApplyPatch(t: Todo, patch: TodoPatch, userId: string)
    ensures ApplyFields(t, PresentFields(patch) + [Field(OwnerColumn, StringParam(userId))])
            == Some(ApplyPatch(t, patch).(userId := userId))
  {
    var ft := if patch.title.Some? then [Field(TitleColumn, StringParam(patch.title.value))] else [];
    var fd := if patch.description.Some? then [Field(DescriptionColumn, StringParam(patch.description.value))] else [];
    var fc := if patch.completed.Some? then [Field(CompletedColumn, BoolParam(patch.completed.value))] else [];
    var fo := [Field(OwnerColumn, StringParam(userId))];
    assert PresentFields(patch) + fo == ft + (fd + (fc + fo));
    ApplyFieldsAppend(t, ft, fd + (fc + fo));
    var t1 := t.(title := patch.title.GetOr(t.title));
    assert ApplyFields(t, ft) == Some(t1);
    ApplyFieldsAppend(t1, fd, fc + fo);
    var t2 := t1.(description := if patch.description.Some? then patch.description else t.description);
    assert ApplyFields(t1, fd) == Some(t2);
    ApplyFieldsAppend(t2, fc, fo);
    var t3 := t2.(completed := patch.completed.GetOr(t.completed));
    assert ApplyFields(t2, fc) == Some(t3);
    assert ApplyFields(t3, fo) == Some(t3.(userId := userId));
  }

  /** Running the built statement does what the patch means: on the caller's row with
      this id, exactly the present fields change (the `user_id = caller` item rewrites
      the owner to itself) and the row is returned; with no such row nothing changes and
      no row comes back. */
  lemma ExecuteBuiltUpdate(todos: Table, id: string, patch: TodoPatch, userId: string)
    requires |PresentFields(patch)| > 0
    ensures var s := Execute(todos, BuildUpdate(id, patch, userId).value);
            if Owns(todos, id, userId) then
              s == Step(Ok(ApplyPatch(todos[id], patch)), todos[id := ApplyPatch(todos[id], patch)])
            else s == Step(Err(NoRows), todos)
  {
    var q := BuildUpdate(id, patch, userId).value;
    LaidOutPlaceholders(id, PresentFields(patch), userId);
    var fields := PresentFields(patch) + [Field(OwnerColumn, StringParam(userId))];
    var k := |PresentFields(patch)|;
    assert Arg(q.args, q.idSlot) == Some(StringParam(id));
    assert Arg(q.args, q.ownerSlot) == Some(StringParam(userId));
    if Owns(todos, id, userId) {
      forall i | 0 <= i < |q.sets|
        ensures q.sets[i].column == fields[i].column && Arg(q.args, q.sets[i].placeholder) == Some(fields[i].value)
      {
        if i < k {
          assert q.args[i] == Values(PresentFields(patch))[i];
        } else {
          assert q.args[k] == StringParam(userId);
        }
      }
      AssignAllFields(todos[id], q.sets, q.args, fields);
      PresentFieldsApplyPatch(todos[id], patch, userId);
      assert ApplyPatch(todos[id], patch).(userId := userId) == ApplyPatch(todos[id], patch);
    }
  }

  /** `Update`: a nil patch and a patch with no present field are refused before the
      table is touched; otherwise the caller's row with this id takes exactly the present
      fields and the updated row is returned, and when the id does not exist or belongs
      to someone else the result is "todo not found". No other row ever changes. */
  function Update(todos: Table, id: string, patch: Option<TodoPatch>, userId: string,
                  fault: Option<string>): (r: Step<Todo>)
    ensures patch.None? ==> r == Step(Err(NilPatch), todos)
    ensures patch.Some? && |PresentFields(patch.value)| == 0 ==> r == Step(Err(NoFieldsToUpdate), todos)
    ensures patch.Some? && |PresentFields(patch.value)| > 0 && fault.Some? ==>
              r == Step(Err("update failed: " + fault.value), todos)
    ensures patch.Some? && |PresentFields(patch.value)| > 0 && fault.None? ==>
              if Owns(todos, id, userId) then
                r == Step(Ok(ApplyPatch(todos[id], patch.value)), todos[id := ApplyPatch(todos[id], patch.value)])
              else r == Step(Err(TodoNotFound), todos)
  {
    if patch.None? then Step(Err(NilPatch), todos)
    else match BuildUpdate(id, patch.value, userId)
      case Err(e) => Step(Err(e), todos)
      case Ok(q) =>
        if fault.Some? then Step(Err("update failed: " + fault.value), todos)
        else
          ExecuteBuiltUpdate(todos, id, patch.value, userId);
          var s := Execute(todos, q);
          match s.result
          case Err(e) => if e == NoRows then Step(Err(TodoNotFound), todos) else Step(Err("update failed: " + e), todos)
          case Ok(_) => s
  }

  /** What a patch leaves alone: the id, the creation time, the owner, and every
      absent field. */
  lemma PatchKeepsIdentity(t: Todo, patch: TodoPatch)
    ensures var u := ApplyPatch(t, patch);
            && u.id == t.id && u.createdAt == t.createdAt && u.userId == t.userId
            && (patch.title.None? ==> u.title == t.title)
            && (patch.description.None? ==> u.description == t.description)
            && (patch.completed.None? ==> u.completed == t.completed)
            && (patch.title.Some? ==> u.title == patch.title.value)
            && (patch.description.Some? ==> u.description == patch.description)
            && (patch.completed.Some? ==> u.completed == patch.completed.value)
  {
  }

  // ------------------------------------------------------------------- Delete

  /** `Delete`: removes exactly the row with this id and owner. With no such row the
      result is "todo not found" and the table is unchanged. When the row count
      cannot be read the delete has still happened. */
  function Delete(todos: Table, id: string, userId: string,
                  execFault: Option<string>, countFault: Option<string>): (r: Step<()>)
    ensures execFault.Some? ==> r == Step(Err("delete failed: " + execFault.value), todos)
    ensures execFault.None? && countFault.Some? ==> r.result == Err("rowsAffected failed: " + countFault.value)
    ensures execFault.None? && countFault.None? ==> (r.result.Ok? <==> Owns(todos, id, userId))
    ensures execFault.None? && countFault.None? && !Owns(todos, id, userId) ==> r == Step(Err(TodoNotFound), todos)
    ensures execFault.None? ==> r.todos.Keys == todos.Keys - (if Owns(todos, id, userId) then {id} else {})
    ensures forall k :: k in r.todos ==> k in todos && r.todos[k] == todos[k]
  {
    if execFault.Some? then Step(Err("delete failed: " + execFault.value), todos)
    else
      var remaining := if Owns(todos, id, userId) then todos - {id} else todos;
      if countFault.Some? then Step(Err("rowsAffected failed: " + countFault.value), remaining)
      else if Owns(todos, id, userId) then Step(Ok(()), remaining)
      else Step(Err(TodoNotFound), todos)
  }

  // --------------------------------------------------------------- invariants

  /** Rows owned by anyone other than the caller are never touched by the caller's
      insert, update or delete. */
  lemma OtherOwnersUntouched(todos: Table, caller: string, freshId: string, now: Instant, input: TodoCreate,
                             id: string, patch: Option<TodoPatch>, fault: Option<string>, countFault: Option<string>)
    requires freshId !in todos
    ensures forall k :: k in todos && todos[k].userId != caller ==>
              && k in Insert(todos, input, caller, freshId, now, fault).todos
              && Insert(todos, input, caller, freshId, now, fault).todos[k] == todos[k]
              && k in Update(todos, id, patch, caller, fault).todos
              && Update(todos, id, patch, caller, fault).todos[k] == todos[k]
              && k in Delete(todos, id, caller, fault, countFault).todos
              && Delete(todos, id, caller, fault, countFault).todos[k] == todos[k]
  {
  }

  /** Insert, update and delete keep every row stored under its own id, and an update
      never changes a row's owner. */
  lemma OperationsKeepWellFormed(todos: Table, caller: string, freshId: string, now: Instant, input: TodoCreate,
                                 id: string, patch: Option<TodoPatch>, fault: Option<string>, countFault: Option<string>)
    requires WellFormed(todos) && freshId !in todos
    ensures WellFormed(Insert(todos, input, caller, freshId, now, fault).todos)
    ensures WellFormed(Update(todos, id, patch, caller, fault).todos)
    ensures WellFormed(Delete(todos, id, caller, fault, countFault).todos)
    ensures forall k :: k in todos ==> Update(todos, id, patch, caller, fault).todos[k].userId == todos[k].userId
  {
  }

  /** Deleting what was just inserted, as the same owner, gives back the table. */
  lemma InsertThenDelete(todos: Table, input: TodoCreate, userId: string, freshId: string, now: Instant)
    requires freshId !in todos
    ensures var s := Insert(todos, input, userId, freshId, now, None);
            Delete(s.todos, freshId, userId, None, None) == Step(Ok(()), todos)
  {
    var s := Insert(todos, input, userId, freshId, now, None);
    assert s.todos - {freshId} == todos;
  }
}

=== FILE: users.dfy ===
/** The `users` table and its model (internal/database/users.go).

    The table is the sequence of its rows in storage order: a single-row query
    (`QueryRow`) yields the first row that satisfies its WHERE clause. The store
    assigns the id and both timestamps on insert and refuses a second row with an
    email that is already present.
 */
module Users {
  import opened Base

  /** A stored user. `password` holds the bcrypt hash. */
  datatype User = User(id: string, email: string, name: string, password: string,
                       createdAt: Instant, updatedAt: Instant)

  /** What `encoding/json` writes for a `User`: the password field is tagged `json:"-"`
      and so has no place here. */
  datatype UserView = UserView(id: string, email: string, name: string,
                               createdAt: Instant, updatedAt: Instant)

  function Wire(u: User): UserView
  {
    UserView(u.id, u.email, u.name, u.createdAt, u.updatedAt)
  }

  /** The serialized form of a user does not depend on the stored password at all. */
  lemma WireHidesPassword(u: User, password: string)
    ensures Wire(u.(password := password)) == Wire(u)
    ensures Wire(u).id == u.id && Wire(u).email == u.email && Wire(u).name == u.name
    ensures Wire(u).createdAt == u.createdAt && Wire(u).updatedAt == u.updatedAt
  {
  }

  type UserTable = seq<User>

  /** Ids and emails are unique across the table. */
  predicate WellFormed(users: UserTable)
  {
    forall i, j :: 0 <= i < j < |users| ==> users[i].id != users[j].id && users[i].email != users[j].email
  }

  /** The WHERE clause of the two lookups: exact, case-sensitive equality. */
  datatype Key = ById(id: string) | ByEmail(email: string)

  predicate Matches(u: User, key: Key)
  {
    match key
    case ById(id) => u.id == id
    case ByEmail(email) => u.email == email
  }

  /** The first row the WHERE clause selects, or nothing when no row does. */
  function Lookup(users: UserTable, key: Key): (r: Option<User>)
    ensures r.Some? ==> r.value in users && Matches(r.value, key)
    ensures r.None? <==> forall u :: u in users ==> !Matches(u, key)
  {
    if |users| == 0 then None
    else if Matches(users[0], key) then Some(users[0])
    else
      assert forall u :: u in users ==> u == users[0] || u in users[1..];
      Lookup(users[1..], key)
  }

  /** In a well-formed table the row a key selects is the only one it matches. */
  lemma {:induction false} LookupFindsTheMatch(users: UserTable, key: Key, i: nat)
    requires WellFormed(users)
    requires i < |users| && Matches(users[i], key)
    ensures Lookup(users, key) == Some(users[i])
    decreases i
  {
    if i > 0 {
      assert users[0].id != users[i].id && users[0].email != users[i].email;
      assert users[1..][i - 1] == users[i];
      LookupFindsTheMatch(users[1..], key, i - 1);
    }
  }

  /** `getUser`: a failing query propagates its error unchanged, "no rows" is a nil
      user without an error, and a found row comes back whole, hash included. */
  function GetUser(users: UserTable, key: Key, fault: Option<string>): (r: Result<Option<User>>)
    ensures fault.Some? ==> r == Err(fault.value)
    ensures fault.None? ==> r.Ok?
    ensures r.Ok? && r.value.Some? ==> r.value.value in users && Matches(r.value.value, key)
    ensures fault.None? ==> (r.value.None? <==> forall u :: u in users ==> !Matches(u, key))
  {
    if fault.Some? then Err(fault.value) else Ok(Lookup(users, key))
  }

  /** `Get(id)`: lookup by exact id. */
  function Get(users: UserTable, id: string, fault: Option<string>): (r: Result<Option<User>>)
    ensures fault.Some? ==> r == Err(fault.value)
    ensures r.Ok? && r.value.Some? ==> r.value.value in users && r.value.value.id == id
    ensures fault.None? ==> r.Ok? && (r.value.None? <==> forall u :: u in users ==> u.id != id)
  {
    GetUser(users, ById(id), fault)
  }

  /** `GetByEmail(email)`: lookup by exact email, without any normalisation. */
  function GetByEmail(users: UserTable, email: string, fault: Option<string>): (r: Result<Option<User>>)
    ensures fault.Some? ==> r == Err(fault.value)
    ensures r.Ok? && r.value.Some? ==> r.value.value in users && r.value.value.email == email
    ensures fault.None? ==> r.Ok? && (r.value.None? <==> forall u :: u in users ==> u.email != email)
  {
    GetUser(users, ByEmail(email), fault)
  }

  /** The error the store reports for a second row with the same email. */
  const DuplicateEmail := "duplicate key value violates unique constraint"

  /** The effect of an insert: the outcome and the table afterwards. */
  datatype Insertion = Insertion(result: Result<User>, users: UserTable)

  /** `Insert`: stores email, name and password as supplied and takes the id and both
      timestamps from the store (`RETURNING id, created_at, updated_at`). `freshId` and
      `now` are the values the store generates. */
  function Insert(users: UserTable, user: User, freshId: string, now: Instant, fault: Option<string>): (r: Insertion)
    requires forall u :: u in users ==> u.id != freshId
    ensures fault.Some? ==> r == Insertion(Err(fault.value), users)
    ensures fault.None? && (exists u :: u in users && u.email == user.email) ==>
              r == Insertion(Err(DuplicateEmail), users)
    ensures r.result.Ok? ==>
              && r.result.value.id == freshId
              && r.result.value.createdAt == now && r.result.value.updatedAt == now
              && r.result.value.email == user.email && r.result.value.name == user.name
              && r.result.value.password == user.password
              && r.users == users + [r.result.value]
    ensures fault.None? && (forall u :: u in users ==> u.email != user.email) ==> r.result.Ok?
  {
    if fault.Some? then Insertion(Err(fault.value), users)
    else if Lookup(users, ByEmail(user.email)).Some? then Insertion(Err(DuplicateEmail), users)
    else
      var stored := user.(id := freshId, createdAt := now, updatedAt := now);
      Insertion(Ok(stored), users + [stored])
  }

  /** Inserting keeps ids and emails unique. */
  lemma InsertKeepsWellFormed(users: UserTable, user: User, freshId: string, now: Instant, fault: Option<string>)
    requires WellFormed(users)
    requires forall u :: u in users ==> u.id != freshId
    ensures WellFormed(Insert(users, user, freshId, now, fault).users)
  {
    var r := Insert(users, user, freshId, now, fault);
    if r.result.Ok? {
      var s := r.users;
      forall i, j | 0 <= i < j < |s|
        ensures s[i].id != s[j].id && s[i].email != s[j].email
      {
        if j == |users| {
          assert s[i] in users;
        }
      }
    }
  }
}
